=== FILE: README.md ===
# ReactiveFileSystemWatcher, modelled in Dafny

ReactiveFileSystemWatcher turns the platform's raw filesystem notifications
into logical changes: Add, Delete, Change and Rename. It does this by
snapshots. For every watched folder it keeps the last snapshot it took:
the folder's immediate children, each with a stable file id, a full name
and a last-write time, ordered by id. When a batch of changed paths
arrives, it takes a fresh snapshot of each path's folder and merges it
against the stored one.

- An id only in the old snapshot is a Delete.
- An id only in the new snapshot is an Add.
- An id in both is a Rename when its name differs, and a Change when its
  write time advanced by more than the latency.

A folder that vanished yields a Delete of the path itself.

This project models that core. The modules are:

- `FileSystemModel`: the filesystem as a map from folder path to raw
  listing, file ids as 64-bit unsigned numbers, write times as ticks, the
  platform's path rules (`DirectoryName`, trailing separators), and the
  folders below a root.
- `FileSystemChanges`: the change variant, and the tally of a batch by kind.
- `Snapshots`: snapshot construction and the two-cursor merge. The merge
  exists twice: as the recursive function `Diff`, and as the method
  `EnumerateDifferences`, which mirrors the source loop and is proved
  equal to `Diff`.
- `SnapshotProperties`: what the merge reports, against independent
  reference definitions. These cover which names are added and deleted,
  which matched pairs are updated, that changes come out in ascending id
  order, and that a single edit yields a single change.
- `ReactiveWatcher`: the watcher's configuration defaults, its snapshot
  store, the provider's enabled flag, and the batch step `GetChanges`.
- `WatcherProperties`: properties across several steps.
- `WatcherScenarios`: the situations of the repository's unit tests, stated
  for every store of that shape.

Behaviours of the code that a reader might not expect, each with the lines
it comes from:

- The changes of a batch come out in the order of the batch's paths, then
  by id within one folder. They are not sorted by path. A sort by full name
  is written at `Snapshot.cs:120`, but it is commented out.
- Snapshotting a folder that does not exist fails (`Snapshot.cs:23`
  enumerates the folder). `TakeSnapshot` returns `Err`.
- `ResetSnapshots` snapshots every folder below the root at any depth
  (`ReactiveFileSystemWatcher.cs:90` enumerates all directories). The
  `recurse` argument only configures the notification provider (`:51`).
- The stored snapshot is replaced only when the diff is non-empty
  (`ReactiveFileSystemWatcher.cs:145-149`). When the folder had no stored
  snapshot, the store's get-or-create (`:44`, `:142`) still inserts one.
  So the first access stores the current state and reports nothing.
- A temporal resolution left at its default (zero) becomes 250 ms
  (`ReactiveFileSystemWatcher.cs:15`, `:42`); any other value is kept.
- The ignore list is stored (`ReactiveFileSystemWatcher.cs:23`, `:41`) but
  never read.
- Creating a watcher on a missing root fails in the notification
  provider's constructor (`ReactiveFileSystemWatcher.cs:47`). That failure
  is an invalid-argument error (`InvalidRoot`), not a directory-not-found
  error.
- A root written with trailing separators (`C:\w\`) is stored under that
  spelling (`ReactiveFileSystemWatcher.cs:89`), while the folder of a file
  directly under it comes back bare (`C:\w`, `:129`). The store holds no
  entry for that key, so the first change directly under the root is
  absorbed by the get-or-create (`:142`) and not reported. Folders below
  the root are found either way (`:90`).

Two doc comments promise more than the code delivers:

- `ReactiveFileSystemWatcher.cs:30` and `:121` say the list of changes is
  never empty. `GetChanges` can return an empty list, for instance for a
  batch right after `Start` (`WatcherProperties.NothingReportedAfterStart`).

The latency in the comparison at `Snapshot.cs:110` is a static
`ReactiveFileSystemWatcher.Latency`, which the watcher class shown does not
declare. The model takes it as an explicit `latency` parameter. Several
properties assume it is not negative.

## Model

| member | source | states |
|---|---|---|
| FileSystemModel.DirectoryName | ReactiveFileSystemWatcher.cs:129 | the parent is a proper prefix of the path that keeps the path's volume root; beyond the root it ends just before a run of separators, after which no separator follows a name character; a path that is only a root has no parent (the empty string) |
| FileSystemModel.RootLength | ReactiveFileSystemWatcher.cs:129 | a path's root is a drive letter and colon, with the following separator when there is one, or else a leading separator; any other start has no root |
| FileSystemModel.VolumeRootParents | ReactiveFileSystemWatcher.cs:129 | `\a` has parent `\` and `C:\ab` has `C:\`, so they lie below their roots, and doubled separators are trimmed |
| FileSystemModel.WithoutTrailingSeparators | ReactiveFileSystemWatcher.cs:130 | the spelling by which a folder is looked up: a prefix of the path that keeps its root and ends in no separator beyond the root, only separators having been dropped |
| FileSystemModel.TrimmedSpellings | ReactiveFileSystemWatcher.cs:129-130 | trimming twice trims nothing more, and a path's folder part is already in its trimmed spelling |
| FileSystemModel.RootSpellingKeepsSubfolders | ReactiveFileSystemWatcher.cs:90 | a root written with trailing separators (`C:\w\`) has the same folders below it as its bare spelling (`C:\w`) |
| FileSystemChanges.CountOfKind | Test/Unit.cs:131-133 | the tally the tests make of a batch: all of it exactly when every change is of the kind, none exactly when no change is |
| Snapshots.CompareTo | Snapshot.cs:131 | entries compare by id alone: -1, 0 or 1 exactly as the first id is below, equal to or above the second |
| Snapshots.SortById | Snapshot.cs:33 | the listing is ordered by id and is a permutation of the folder's entries |
| Snapshots.TakeSnapshot | Snapshot.cs:21-34 | succeeds exactly when the folder exists, under either spelling of its path, giving its entries (as a multiset) ordered by id; otherwise fails naming the folder |
| SnapshotProperties.SortStrict | Snapshot.cs:33 | when a folder's ids are distinct, the sorted snapshot is strictly increasing in id |
| SnapshotProperties.SnapshotOrderIsUnique | Snapshot.cs:33 | every id-ordered permutation of a listing with distinct ids is the snapshot built, so the sorting algorithm does not matter |
| Snapshots.AddAll | Snapshot.cs:43-48 | one Add per entry, carrying that entry's full name, in order |
| Snapshots.DeleteAll | Snapshot.cs:50-54 | one Delete per entry, carrying that entry's full name, in order |
| Snapshots.MatchedChanges | Snapshot.cs:101-117 | for an id in both snapshots: a Rename iff the name differs, a Change iff the write time advanced by more than the latency, the Rename first, nothing else |
| Snapshots.Diff | Snapshot.cs:41-123 | the merge never reports more changes than the older and newer snapshots hold entries together: a one-sided id yields one change from one entry, a shared id at most a Rename and a Change from two |
| Snapshots.EnumerateDifferences | Snapshot.cs:41-123 | the source loop, with its empty-snapshot shortcuts, `max` guard and flushes, computes exactly the recursive merge `Diff` |
| SnapshotProperties.DiffFromEmptySnapshot | Snapshot.cs:43-48 | from an empty snapshot every entry of the newer one is an Add |
| SnapshotProperties.DiffToEmptySnapshot | Snapshot.cs:50-54 | to an empty snapshot every entry of the older one is a Delete |
| SnapshotProperties.DiffAdds | Snapshot.cs:62-100 | for strictly id-ordered snapshots, the added names are exactly the names of the entries whose id is only in the newer snapshot, in order |
| SnapshotProperties.DiffDeletes | Snapshot.cs:62-100 | for strictly id-ordered snapshots, the deleted names are exactly the names of the entries whose id is only in the older snapshot, in order |
| SnapshotProperties.DiffUpdates | Snapshot.cs:101-117 | for strictly id-ordered snapshots, the Renames and Changes are exactly the matched changes of the ids present in both snapshots, in id order |
| SnapshotProperties.DiffOfEqualIsEmpty | Snapshot.cs:86-117 | a snapshot compared with itself reports nothing (latency not negative) |
| SnapshotProperties.DiffSplit | Snapshot.cs:62-118 | for id-ordered snapshots, the changes for ids below any threshold all come before the changes for ids at or above it |
| SnapshotProperties.DiffAroundId | Snapshot.cs:62-118 | the changes are those of the smaller ids, then those concerning id x (a Delete, an Add or its matched changes), then those of the larger ids |
| SnapshotProperties.DiffCommonPrefix | Snapshot.cs:101-117 | for a non-negative latency, entries both snapshots start with contribute no change |
| SnapshotProperties.DiffOfRemoval | Snapshot.cs:89-94 | removing one entry from an id-ordered snapshot is reported as exactly one Delete of its name |
| SnapshotProperties.DiffOfInsertion | Snapshot.cs:95-100 | adding one entry to an id-ordered snapshot is reported as exactly one Add of its name |
| SnapshotProperties.DiffOfAlteration | Snapshot.cs:101-117 | altering one entry while keeping its id is reported as that entry's matched changes and nothing else |
| ReactiveWatcher.GetOrCreate | ReactiveFileSystemWatcher.cs:44 | the store's lookup returns the stored snapshot, or stores and returns the created one; other entries are kept |
| ReactiveWatcher.ResetSnapshots | ReactiveFileSystemWatcher.cs:87-94 | fails exactly when the root does not exist; otherwise the root and every folder below it hold a fresh snapshot, and other entries are kept |
| ReactiveWatcher.Create | ReactiveFileSystemWatcher.cs:39-70 | an absent ignore list is empty; a zero resolution becomes 250 ms; the provider is enabled as `startRunning` says; the store holds exactly the root's and its subfolders' snapshots; a missing root is rejected as an invalid root |
| ReactiveWatcher.Start | ReactiveFileSystemWatcher.cs:96-100 | re-snapshots the root and every folder below it, then enables the provider; fails when the root is gone |
| ReactiveWatcher.Stop | ReactiveFileSystemWatcher.cs:102-105 | disables the provider and changes nothing else |
| ReactiveWatcher.OnProviderError | ReactiveFileSystemWatcher.cs:62-67 | after a provider error the provider is enabled exactly when the root still exists; nothing else changes |
| ReactiveWatcher.ChangesForPath | ReactiveFileSystemWatcher.cs:128-149 | a vanished folder gives a Delete of the path and loses its stored snapshot; otherwise the diff against the stored snapshot is reported, the fresh snapshot is stored when the diff is non-empty, and afterwards the folder is caught up; no other folder's entry changes |
| ReactiveWatcher.GetChanges | ReactiveFileSystemWatcher.cs:122-153 | only the store changes, and only the entries of the batch's folders |
| WatcherProperties.GetChangesAppend | ReactiveFileSystemWatcher.cs:126-150 | processing two batches back to back equals processing their concatenation |
| WatcherProperties.SharedParentAddsNothing | ReactiveFileSystemWatcher.cs:138-149 | a second path in the same existing folder adds no change and leaves the watcher unchanged |
| WatcherProperties.ChangesForPathKeepsCaughtUp | ReactiveFileSystemWatcher.cs:138-149 | a folder whose stored snapshot matched the filesystem still does after any path is processed |
| WatcherProperties.QuietBatch | ReactiveFileSystemWatcher.cs:122-153 | a batch in existing folders that are caught up reports nothing and keeps them caught up |
| WatcherProperties.StartCatchesUp | ReactiveFileSystemWatcher.cs:96-100 | after Start, the root and every folder below it are caught up with the filesystem |
| WatcherProperties.StartAfterStop | ReactiveFileSystemWatcher.cs:96-105 | Stop has no effect on what a following Start produces |
| WatcherProperties.ResetTwiceIsReset | ReactiveFileSystemWatcher.cs:87-94 | resetting a store that was just reset, against the same filesystem, gives the same store |
| WatcherProperties.StartIsIdempotent | ReactiveFileSystemWatcher.cs:96-100 | a second Start against the same filesystem changes nothing |
| WatcherProperties.NothingReportedAfterStart | ReactiveFileSystemWatcher.cs:96-100 | changes made while stopped are absorbed by Start: a batch in the watched tree then reports nothing until the filesystem changes |
| WatcherProperties.VanishedFolders | ReactiveFileSystemWatcher.cs:128-136 | a batch whose folders are all gone yields one Delete per path, in order, and none of those folders keeps a snapshot |
| WatcherProperties.ErrorRecovery | Test/Integration.cs:24-42 | with the root gone, an error leaves the provider disabled and Start fails; once the root is back, Start enables it; deleting the root again disables it at the next error |
| WatcherScenarios.FileAdded | Test/Unit.cs:9-48 | a file appearing in a folder with a stored snapshot is one Add and nothing else, as the test tallies, and the fresh snapshot is stored |
| WatcherScenarios.FileDeleted | Test/Unit.cs:274-309 | a file vanishing from a folder with a stored snapshot is one Delete and nothing else, as the test tallies, and the fresh snapshot is stored |
| WatcherScenarios.FileRenamed | Test/Unit.cs:148-186 | a rename inside a folder, notified by its new path only (as `ReactiveFileSystemWatcher.cs:74` selects), is one Rename from the old to the new name and nothing else, as the test tallies |
| WatcherScenarios.FileWritten | Test/Unit.cs:235-272 | a write that moves the write time past the latency is one Change and nothing else, as the test tallies |
| WatcherScenarios.SubfolderDeleted | Test/Unit.cs:311-349 | deleting a subfolder holding a file, notified by both paths, is two Deletes and nothing else, as the test tallies, and the deleted folder keeps no snapshot |
| WatcherScenarios.FirstAccessReportsNothing | ReactiveFileSystemWatcher.cs:139-149 | for any non-negative latency, a path whose existing folder has no stored snapshot yet reports nothing |
| WatcherScenarios.TrailingSeparatorRootWatchesSubfolders | ReactiveFileSystemWatcher.cs:87-93 | a watcher on `C:\w\` stores the root under that spelling and its subfolder `C:\w\a` under the listed one |
| WatcherScenarios.TrailingSeparatorRootMissesFirstChange | ReactiveFileSystemWatcher.cs:129-149 | with a root written with trailing separators, a file directly under it has the bare spelling as its folder, which the new watcher's store does not hold, so its first change is reported as nothing, for any non-negative latency |
| WatcherScenarios.TrailingSeparatorRootExample | ReactiveFileSystemWatcher.cs:129-149 | watching `C:\w\` with a latency of 250 ms, a new file `C:\w\f` is not reported |

## Left out

- The platform notification provider (`FileSystemWatcher`), its filter, notify flags and `IncludeSubdirectories` are left out. They decide which paths arrive, not what is made of them. The provider's enabled flag is kept.
- The Rx pipeline is left out: merging the four event streams, `Distinct`, `BufferWhenAvailable`, `Publish` and `Subscribe`. A batch is a parameter of `GetChanges`.
- `Dispose` is left out. It only releases resources.
- Concurrency of the snapshot store (`ConcurrentCache`) is left out. Batches are processed one at a time, and the filesystem does not change during a batch.
- `FileID.GetUniqueFileID` and the platform directory listing are not part of this model. A folder's listing, with ids and write times, is given by the filesystem map. Ids are distinct within a folder where a property needs it.
- The two-argument `Snapshot` constructor that the watcher calls is not part of this model. Its behaviour is taken to be the one-argument constructor shown.
- The `Add`, `Delete`, `Change` and `Rename` factories that `Snapshot.cs` calls are not part of this model. They are modelled as building the change variant with the entry's full name, and the old name for a rename.
- The ignore list is not filtered on, because the code never reads it.
- FileSystemModel.DirectoryName: does not model separator normalisation (the platform rewrites `/` as `\` and collapses doubled separators inside the result, so `C:\a\\b\c` gives `C:\a\b`) or UNC roots (`\\server\share`), because the platform's path rules beyond drive and separator roots are outside the model. The null result for a path that is only a root is modelled as the empty string: neither names an existing folder. What the store does when asked to remove a null key is not part of this model.
- FileSystemModel.WithoutTrailingSeparators: the filesystem map names each folder by one spelling, without trailing separators; any other key is a folder no lookup reaches, and other aliases of a folder (case, `/`, `.` and `..`) are not modelled.
- ReactiveWatcher.Create: the constructor's optional-argument defaults (root `\`, no ignore list, filter `*`, `startRunning` and `recurse` true, the zero resolution) are not modelled as defaults; callers always supply the root and `startRunning`, while an absent ignore list and the zero resolution are modelled. The filter and `recurse` only configure the notification provider, which is not modelled.
- Wall-clock time and the temporal resolution's role in batching are left out. The resolution is only stored.
- ReactiveWatcher.GetChanges: its contract does not state that the changes are non-empty or distinct, because the code does not ensure it.

=== FILE: file_system_change.dfy ===
/**
  A logical change in the filesystem: a tagged variant whose kind decides
  which names it carries. Only a rename carries the old name.
 */
module FileSystemChanges {
  import opened FileSystemModel

  datatype ChangeTypes = Add | Delete | Change | Rename

  datatype FileSystemChange =
    | Added(fullName: string)
    | Deleted(fullName: string)
    | Changed(fullName: string)
    | Renamed(oldName: string, fullName: string)
  {
    function ChangeType(): ChangeTypes {
      match this
      case Added(_) => Add
      case Deleted(_) => Delete
      case Changed(_) => Change
      case Renamed(_, _) => Rename
    }

    /** The change reporting that `o` appeared. */
    static function AddOf(o: FileSystemObject): FileSystemChange {
      Added(o.filename)
    }

    /** The change reporting that `o` disappeared. */
    static function DeleteOf(o: FileSystemObject): FileSystemChange {
      Deleted(o.filename)
    }

    /** The change reporting that the contents of `o` were written. */
    static function ChangeOf(o: FileSystemObject): FileSystemChange {
      Changed(o.filename)
    }

    /** The change reporting that the object once named `before` is now named `after`. */
    static function RenameOf(before: FileSystemObject, after: FileSystemObject): FileSystemChange {
      Renamed(before.filename, after.filename)
    }
  }

  /**
    How many of `changes` are of `kind`, the way the repository's tests
    tally a batch: all of them exactly when every change is of that kind,
    none exactly when no change is.
   */
  function CountOfKind(changes: seq<FileSystemChange>, kind: ChangeTypes): (n: nat)
    ensures n <= |changes|
    ensures n == |changes| <==> forall i :: 0 <= i < |changes| ==> changes[i].ChangeType() == kind
    ensures n == 0 <==> forall i :: 0 <= i < |changes| ==> changes[i].ChangeType() != kind
  {
    if changes == [] then 0
    else (if changes[0].ChangeType() == kind then 1 else 0) + CountOfKind(changes[1..], kind)
  }
}

=== FILE: filesystem_model.dfy ===
/**
  The abstract filesystem the watcher observes: every existing folder, by its
  full path, with the list of its immediate children (files and subfolders)
  as the platform enumerates them. Ids come from the platform's stable
  identity function, and times are UTC last-write times in 100-nanosecond ticks.
 */
module FileSystemModel {

  datatype Option<+T> = None | Some(value: T)

  /**
    Errors the modelled operations raise as exceptions in the source: a
    folder that cannot be enumerated because it does not exist, and a root
    the platform notification provider refuses to watch.
   */
  datatype WatcherError = DirectoryNotFound(path: string) | InvalidRoot(path: string)

  datatype Result<+T> = Ok(value: T) | Err(error: WatcherError)

  /** A stable file id: an unsigned 64-bit value. */
  type FileId = x: nat | x < 0x1_0000_0000_0000_0000

  /** A point in time or a duration, in 100-nanosecond ticks. */
  type Ticks = int

  const TicksPerMillisecond: Ticks := 10000

  /** One immediate child of a folder: its stable id, full name and last write time. */
  datatype FileSystemObject = FileSystemObject(id: FileId, filename: string, lastWriteTime: Ticks)

  /**
    The filesystem at one instant: each existing folder's immediate
    children, in enumeration order. A folder is keyed by its one spelling
    without trailing separators (`C:\w`, never `C:\w\`); lookups trim a
    looked-up path the same way, so both spellings of a path find the folder.
   */
  type FileSystem = map<string, seq<FileSystemObject>>

  predicate IsSeparator(c: char) {
    c == '\\' || c == '/'
  }

  predicate IsDriveLetter(c: char) {
    'a' <= c <= 'z' || 'A' <= c <= 'Z'
  }

  /**
    The length of the root a path starts with, by Windows path rules: a
    drive letter with colon and separator `X:\` (3), a drive-relative `X:`
    (2), a leading separator (1), or none (0).
   */
  function RootLength(path: string): (r: nat)
    ensures r <= |path| && r <= 3
    ensures r >= 2 <==> |path| >= 2 && IsDriveLetter(path[0]) && path[1] == ':'
    ensures r == 3 <==> |path| >= 3 && IsDriveLetter(path[0]) && path[1] == ':' && IsSeparator(path[2])
    ensures r == 1 <==> |path| >= 1 && IsSeparator(path[0])
  {
    if |path| >= 3 && IsDriveLetter(path[0]) && path[1] == ':' && IsSeparator(path[2]) then 3
    else if |path| >= 2 && IsDriveLetter(path[0]) && path[1] == ':' then 2
    else if |path| >= 1 && IsSeparator(path[0]) then 1
    else 0
  }

  /**
    Walks back from `end` to the last separator that lies beyond the root;
    stops at the root when there is none.
   */
  function ScanBack(path: string, root: nat, end: nat): (r: nat)
    requires root <= end <= |path|
    ensures root <= r <= end
    ensures end > root ==> r < end
    ensures r > root ==> IsSeparator(path[r])
    ensures forall i :: r < i < end ==> !IsSeparator(path[i])
    decreases end
  {
    if end <= root then end
    else if IsSeparator(path[end - 1]) then end - 1
    else ScanBack(path, root, end - 1)
  }

  /** Drops the separators just before `end`, never going into the root. */
  function TrimSeparators(path: string, root: nat, end: nat): (r: nat)
    requires root <= end <= |path|
    ensures root <= r <= end
    ensures forall i :: r <= i < end ==> IsSeparator(path[i])
    ensures r > root ==> !IsSeparator(path[r - 1])
    decreases end
  {
    if end > root && IsSeparator(path[end - 1]) then TrimSeparators(path, root, end - 1) else end
  }

  /**
    The folder part of a path, by Windows path rules: everything
    before the last separator, with the separators before it trimmed, but
    never less than the path's root, which keeps its own separator (`\a`
    gives `\`, `C:\a` gives `C:\`). A path that is only a root has no
    folder part; that absent result, like the one of a path without any
    separator, is the empty string, which never names an existing folder.
   */
  function DirectoryName(path: string): (r: string)
    ensures r <= path
    ensures path != [] ==> |r| < |path|
    ensures |path| <= RootLength(path) ==> r == []
    ensures |path| > RootLength(path) ==> RootLength(path) <= |r|
    ensures |r| > RootLength(path) ==> !IsSeparator(path[|r| - 1]) && IsSeparator(path[|r|])
    ensures |path| > RootLength(path) ==>
              forall i, k :: |r| <= i < k < |path| && IsSeparator(path[k]) ==> IsSeparator(path[i])
  {
    var root := RootLength(path);
    if |path| <= root then []
    else
      var last := ScanBack(path, root, |path|);
      var end := TrimSeparators(path, root, last);
      assert forall i :: end <= i <= last && i > root ==> IsSeparator(path[i]);
      path[..end]
  }

  /** Only the empty path is its own folder. */
  lemma DirectoryNameIsProper(path: string)
    ensures DirectoryName(path) == path ==> path == []
  {
  }

  /** Children of a volume root keep the root as their folder, so they lie below it. */
  lemma VolumeRootParents()
    ensures IsSubfolder("\\", "\\a") && IsSubfolder("C:\\", "C:\\a\\b")
    ensures DirectoryName("\\a") == "\\"
    ensures DirectoryName("C:\\ab") == "C:\\"
    ensures DirectoryName("C:\\a\\\\b") == "C:\\a"
    ensures DirectoryName("a\\b") == "a"
    ensures DirectoryName("\\") == [] && DirectoryName("C:\\") == []
  {
    var doubled := "C:\\a\\\\b";
    assert ScanBack(doubled, 3, 6) == 5;
    assert TrimSeparators(doubled, 3, 4) == 4;
  }

  /**
    A path's spelling without trailing separators, as the platform reads a
    folder path: never shorter than the path's root, so `C:\w\` gives
    `C:\w` while `C:\` stays `C:\`.
   */
  function WithoutTrailingSeparators(path: string): (r: string)
    ensures r <= path && RootLength(path) <= |r|
    ensures forall i :: |r| <= i < |path| ==> IsSeparator(path[i])
    ensures |r| > RootLength(path) ==> !IsSeparator(path[|r| - 1])
  {
    path[..TrimSeparators(path, RootLength(path), |path|)]
  }

  /** A prefix at least as long as a path's root has that same root. */
  lemma RootOfPrefix(path: string, prefix: string)
    requires prefix <= path && RootLength(path) <= |prefix|
    ensures RootLength(prefix) == RootLength(path)
  {
  }

  /** Trimming trailing separators twice trims nothing more, and a folder part never ends in a trailing separator. */
  lemma {:induction false} TrimmedSpellings(path: string)
    ensures WithoutTrailingSeparators(WithoutTrailingSeparators(path)) == WithoutTrailingSeparators(path)
    ensures WithoutTrailingSeparators(DirectoryName(path)) == DirectoryName(path)
  {
    var t := WithoutTrailingSeparators(path);
    RootOfPrefix(path, t);
    var n := TrimSeparators(t, RootLength(t), |t|);
    assert n == |t|;
    var d := DirectoryName(path);
    if |path| > RootLength(path) {
      RootOfPrefix(path, d);
      assert TrimSeparators(d, RootLength(d), |d|) == |d|;
    }
  }

  /**
    A folder exists when the filesystem lists its spelling without trailing
    separators; the empty path never names a folder.
   */
  predicate DirectoryExists(fs: FileSystem, folder: string) {
    folder != [] && WithoutTrailingSeparators(folder) in fs
  }

  /** The immediate children of an existing folder, whichever way its path is spelled. */
  function Listing(fs: FileSystem, folder: string): (r: seq<FileSystemObject>)
    requires DirectoryExists(fs, folder)
    ensures WithoutTrailingSeparators(folder) in fs && r == fs[WithoutTrailingSeparators(folder)]
  {
    fs[WithoutTrailingSeparators(folder)]
  }

  /**
    `folder` lies somewhere below `root`: following parent folders from it
    reaches the root, spelled without trailing separators.
   */
  predicate IsSubfolder(root: string, folder: string)
    decreases |folder|
  {
    folder != [] &&
    var parent := DirectoryName(folder);
    parent == WithoutTrailingSeparators(root) || (parent != [] && IsSubfolder(root, parent))
  }

  /** Every existing folder strictly below `root`, at any depth, each by its listed spelling. */
  function Subfolders(fs: FileSystem, root: string): (r: set<string>)
    ensures forall d :: d in r <==> d in fs && d == WithoutTrailingSeparators(d) && IsSubfolder(root, d)
    ensures forall d :: d in r ==> DirectoryExists(fs, d)
  {
    set d | d in fs && d == WithoutTrailingSeparators(d) && IsSubfolder(root, d)
  }

  /**
    A root spelled with trailing separators and the bare spelling have the
    same folders below.
   */
  lemma {:induction false} RootSpellingKeepsSubfolders(fs: FileSystem, root: string)
    ensures Subfolders(fs, root) == Subfolders(fs, WithoutTrailingSeparators(root))
  {
    TrimmedSpellings(root);
    forall d | d in fs ensures IsSubfolder(root, d) == IsSubfolder(WithoutTrailingSeparators(root), d) {
      SameSubfolderTest(root, d);
    }
  }

  /** Following parent folders compares against the trimmed root, so trimming it first changes nothing. */
  lemma {:induction false} SameSubfolderTest(root: string, folder: string)
    ensures IsSubfolder(root, folder) == IsSubfolder(WithoutTrailingSeparators(root), folder)
    decreases |folder|
  {
    TrimmedSpellings(root);
    if folder != [] && DirectoryName(folder) != [] {
      SameSubfolderTest(root, DirectoryName(folder));
    }
  }

  /** A folder below a root is longer than the root's trimmed spelling. */
  lemma {:induction false} SubfolderIsLonger(root: string, folder: string)
    requires IsSubfolder(root, folder)
    ensures |folder| > |WithoutTrailingSeparators(root)|
    decreases |folder|
  {
    var parent := DirectoryName(folder);
    if parent != WithoutTrailingSeparators(root) {
      SubfolderIsLonger(root, parent);
    }
  }
}

=== FILE: scenarios.dfy ===
/**
  The situations the repository's unit tests exercise, stated for every
  store and filesystem of that shape: a file added to, deleted from,
  renamed in or written in a watched folder is reported as exactly one
  change of that kind, and deleting a subfolder with a file in it is
  reported as two Deletes.
 */
module WatcherScenarios {
  import opened FileSystemModel
  import opened FileSystemChanges
  import opened Snapshots
  import opened SnapshotProperties
  import opened ReactiveWatcher
  import WatcherProperties

  /** A batch of exactly one change holds one change of its kind and nothing else. */
  lemma OneChangeOfItsKind(c: seq<FileSystemChange>, x: FileSystemChange)
    requires c == [x]
    ensures CountOfKind(c, x.ChangeType()) == 1 == |c|
  {
    assert c[1..] == [];
  }

  /** A batch of exactly two Deletes holds two Deletes and nothing else. */
  lemma TwoDeletes(c: seq<FileSystemChange>, first: string, second: string)
    requires c == [Deleted(first), Deleted(second)]
    ensures CountOfKind(c, Delete) == 2 == |c|
  {
    assert c[1..] == [Deleted(second)] && c[1..][1..] == [];
  }

  /** A batch of one path is that path's contribution. */
  lemma GetChangesSingle(w: Watcher, fs: FileSystem, path: string, latency: Ticks)
    ensures GetChanges(w, fs, [path], latency) == ChangesForPath(w, fs, path, latency)
  {
    var (first, next) := ChangesForPath(w, fs, path, latency);
    assert [path][1..] == [];
    assert first + [] == first;
  }

  /** A batch of two paths is the first path's contribution, then the second's from the store the first left. */
  lemma GetChangesPair(w: Watcher, fs: FileSystem, first: string, second: string, latency: Ticks)
    ensures var (c1, w1) := ChangesForPath(w, fs, first, latency);
            var (c2, w2) := ChangesForPath(w1, fs, second, latency);
            GetChanges(w, fs, [first, second], latency) == (c1 + c2, w2)
  {
    WatcherProperties.GetChangesAppend(w, fs, [first], [second], latency);
    assert [first] + [second] == [first, second];
    GetChangesSingle(w, fs, first, latency);
    GetChangesSingle(ChangesForPath(w, fs, first, latency).1, fs, second, latency);
  }

  /**
    A file appearing in a folder with a stored snapshot is reported as one
    Add of its name, and the folder's stored snapshot becomes the fresh one.
   */
  lemma FileAdded(w: Watcher, fs: FileSystem, path: string,
                  p: seq<FileSystemObject>, x: FileSystemObject, s: seq<FileSystemObject>, latency: Ticks)
    requires latency >= 0
    requires DirectoryExists(fs, DirectoryName(path)) && DirectoryName(path) in w.snapshots
    requires w.snapshots[DirectoryName(path)].contents == p + s
    requires SnapshotOf(Listing(fs, DirectoryName(path))).contents == p + [x] + s
    requires StrictlySortedById(p + [x] + s)
    ensures GetChanges(w, fs, [path], latency).0 == [Added(x.filename)]
    ensures var c := GetChanges(w, fs, [path], latency).0; CountOfKind(c, Add) == 1 == |c|
    ensures GetChanges(w, fs, [path], latency).1.snapshots[DirectoryName(path)] == SnapshotOf(Listing(fs, DirectoryName(path)))
  {
    GetChangesSingle(w, fs, path, latency);
    DiffOfInsertion(p, x, s, latency);
    OneChangeOfItsKind(GetChanges(w, fs, [path], latency).0, Added(x.filename));
  }

  /**
    A file vanishing from a folder with a stored snapshot is reported as one
    Delete of its name, and the folder's stored snapshot becomes the fresh one.
   */
  lemma FileDeleted(w: Watcher, fs: FileSystem, path: string,
                    p: seq<FileSystemObject>, x: FileSystemObject, s: seq<FileSystemObject>, latency: Ticks)
    requires latency >= 0
    requires DirectoryExists(fs, DirectoryName(path)) && DirectoryName(path) in w.snapshots
    requires w.snapshots[DirectoryName(path)].contents == p + [x] + s
    requires SnapshotOf(Listing(fs, DirectoryName(path))).contents == p + s
    requires StrictlySortedById(p + [x] + s)
    ensures GetChanges(w, fs, [path], latency).0 == [Deleted(x.filename)]
    ensures var c := GetChanges(w, fs, [path], latency).0; CountOfKind(c, Delete) == 1 == |c|
    ensures GetChanges(w, fs, [path], latency).1.snapshots[DirectoryName(path)] == SnapshotOf(Listing(fs, DirectoryName(path)))
  {
    GetChangesSingle(w, fs, path, latency);
    DiffOfRemoval(p, x, s, latency);
    OneChangeOfItsKind(GetChanges(w, fs, [path], latency).0, Deleted(x.filename));
  }

  /**
    A rename within a folder is notified with the new path only; that batch
    is reported as one Rename, old name first, and no other change when the
    write time is kept.
   */
  lemma FileRenamed(w: Watcher, fs: FileSystem, newPath: string,
                    p: seq<FileSystemObject>, before: FileSystemObject, after: FileSystemObject,
                    s: seq<FileSystemObject>, latency: Ticks)
    requires latency >= 0
    requires DirectoryExists(fs, DirectoryName(newPath)) && DirectoryName(newPath) in w.snapshots
    requires w.snapshots[DirectoryName(newPath)].contents == p + [before] + s
    requires SnapshotOf(Listing(fs, DirectoryName(newPath))).contents == p + [after] + s
    requires after == before.(filename := after.filename) && after.filename != before.filename
    ensures GetChanges(w, fs, [newPath], latency).0 == [Renamed(before.filename, after.filename)]
    ensures var c := GetChanges(w, fs, [newPath], latency).0; CountOfKind(c, Rename) == 1 == |c|
  {
    EntryAltered(w, fs, newPath, p, before, after, s, latency);
    RenameIsOneRename(before, after, latency);
    GetChangesSingle(w, fs, newPath, latency);
    OneChangeOfItsKind(GetChanges(w, fs, [newPath], latency).0, Renamed(before.filename, after.filename));
  }

  /**
    A write to a file whose last write time moves further than the latency
    is reported as one Change of its name.
   */
  lemma FileWritten(w: Watcher, fs: FileSystem, path: string,
                    p: seq<FileSystemObject>, before: FileSystemObject, after: FileSystemObject,
                    s: seq<FileSystemObject>, latency: Ticks)
    requires latency >= 0
    requires DirectoryExists(fs, DirectoryName(path)) && DirectoryName(path) in w.snapshots
    requires w.snapshots[DirectoryName(path)].contents == p + [before] + s
    requires SnapshotOf(Listing(fs, DirectoryName(path))).contents == p + [after] + s
    requires after == before.(lastWriteTime := after.lastWriteTime)
    requires after.lastWriteTime - before.lastWriteTime > latency
    ensures GetChanges(w, fs, [path], latency).0 == [Changed(after.filename)]
    ensures var c := GetChanges(w, fs, [path], latency).0; CountOfKind(c, Change) == 1 == |c|
  {
    EntryAltered(w, fs, path, p, before, after, s, latency);
    WriteIsOneChange(before, after, latency);
    GetChangesSingle(w, fs, path, latency);
    OneChangeOfItsKind(GetChanges(w, fs, [path], latency).0, Changed(after.filename));
  }

  /** A rename that keeps the write time matches as one Rename, old name first. */
  lemma RenameIsOneRename(before: FileSystemObject, after: FileSystemObject, latency: Ticks)
    requires latency >= 0
    requires after == before.(filename := after.filename) && after.filename != before.filename
    ensures MatchedChanges(before, after, latency) == [Renamed(before.filename, after.filename)]
  {
    assert [Renamed(before.filename, after.filename)] + [] == [Renamed(before.filename, after.filename)];
  }

  /** A write that keeps the name and moves the write time past the latency matches as one Change. */
  lemma WriteIsOneChange(before: FileSystemObject, after: FileSystemObject, latency: Ticks)
    requires after == before.(lastWriteTime := after.lastWriteTime)
    requires after.lastWriteTime - before.lastWriteTime > latency
    ensures MatchedChanges(before, after, latency) == [Changed(after.filename)]
  {
    assert [] + [Changed(after.filename)] == [Changed(after.filename)];
  }

  /** An entry altered under its id, in a folder with a stored snapshot, yields exactly its matched changes. */
  lemma EntryAltered(w: Watcher, fs: FileSystem, path: string,
                     p: seq<FileSystemObject>, before: FileSystemObject, after: FileSystemObject,
                     s: seq<FileSystemObject>, latency: Ticks)
    requires latency >= 0
    requires DirectoryExists(fs, DirectoryName(path)) && DirectoryName(path) in w.snapshots
    requires w.snapshots[DirectoryName(path)].contents == p + [before] + s
    requires SnapshotOf(Listing(fs, DirectoryName(path))).contents == p + [after] + s
    requires before.id == after.id
    ensures ChangesForPath(w, fs, path, latency).0 == MatchedChanges(before, after, latency)
  {
    DiffOfAlteration(p, before, after, s, latency);
  }

  /** An entry vanishing from a folder with a stored snapshot is one Delete of its name. */
  lemma EntryVanishes(w: Watcher, fs: FileSystem, path: string,
                      p: seq<FileSystemObject>, x: FileSystemObject, s: seq<FileSystemObject>, latency: Ticks)
    requires latency >= 0
    requires DirectoryExists(fs, DirectoryName(path)) && DirectoryName(path) in w.snapshots
    requires w.snapshots[DirectoryName(path)].contents == p + [x] + s
    requires SnapshotOf(Listing(fs, DirectoryName(path))).contents == p + s
    requires StrictlySortedById(p + [x] + s)
    ensures ChangesForPath(w, fs, path, latency).0 == [Deleted(x.filename)]
  {
    DiffOfRemoval(p, x, s, latency);
  }

  /** A path in a vanished folder, then another path: the Delete, then the other path's contribution without that folder. */
  lemma VanishedThenOther(w: Watcher, fs: FileSystem, gone: string, other: string, latency: Ticks)
    requires !DirectoryExists(fs, DirectoryName(gone))
    ensures var w1 := w.(snapshots := w.snapshots - {DirectoryName(gone)});
            GetChanges(w, fs, [gone, other], latency) ==
              ([Deleted(gone)] + ChangesForPath(w1, fs, other, latency).0, ChangesForPath(w1, fs, other, latency).1)
  {
    GetChangesPair(w, fs, gone, other, latency);
  }

  /**
    Deleting a subfolder that held a file produces a batch with the file's
    path and the subfolder's path. The file's folder is gone, so the file
    is reported as deleted by path; the subfolder vanishes from its parent's
    snapshot, so it is reported as deleted by name: two Deletes in all, and
    the deleted folder keeps no stored snapshot.
   */
  lemma SubfolderDeleted(w: Watcher, fs: FileSystem, file: string, folder: string,
                         p: seq<FileSystemObject>, sub: FileSystemObject, s: seq<FileSystemObject>, latency: Ticks)
    requires latency >= 0
    requires DirectoryName(file) == folder && !DirectoryExists(fs, folder)
    requires DirectoryExists(fs, DirectoryName(folder)) && DirectoryName(folder) in w.snapshots
    requires w.snapshots[DirectoryName(folder)].contents == p + [sub] + s
    requires SnapshotOf(Listing(fs, DirectoryName(folder))).contents == p + s
    requires StrictlySortedById(p + [sub] + s)
    ensures GetChanges(w, fs, [file, folder], latency).0 == [Deleted(file), Deleted(sub.filename)]
    ensures var c := GetChanges(w, fs, [file, folder], latency).0; CountOfKind(c, Delete) == 2 == |c|
    ensures folder !in GetChanges(w, fs, [file, folder], latency).1.snapshots
  {
    var parent := DirectoryName(folder);
    DirectoryNameIsProper(folder);
    VanishedThenOther(w, fs, file, folder, latency);
    var w1 := w.(snapshots := w.snapshots - {folder});
    assert parent in w1.snapshots && w1.snapshots[parent] == w.snapshots[parent];
    EntryVanishes(w1, fs, folder, p, sub, s, latency);
    var (rest, w2) := ChangesForPath(w1, fs, folder, latency);
    assert folder !in w2.snapshots by {
      assert folder !in w1.snapshots && folder != parent;
    }
    TwoDeletes([Deleted(file)] + rest, file, sub.filename);
  }

  /** The root `C:\w` spelled with a trailing separator. */
  const RootW: string := "C:\\w\\"

  /** A watched tree whose root is `C:\w`, holding the subfolder `C:\w\a`. */
  function TreeW(): FileSystem {
    map["C:\\w" := [FileSystemObject(2, "C:\\w\\a", 0)], "C:\\w\\a" := []]
  }

  /** `C:\w\` and `C:\w` name the same folder. */
  lemma RootWSpelling()
    ensures WithoutTrailingSeparators(RootW) == "C:\\w"
    ensures WithoutTrailingSeparators("C:\\w") == "C:\\w"
  {
    assert TrimSeparators(RootW, 3, 5) == 4;
  }

  /** `C:\w\a` lies below `C:\w\`, and `C:\w` does not. */
  lemma RootWBelow()
    ensures IsSubfolder(RootW, "C:\\w\\a") && !IsSubfolder(RootW, "C:\\w")
    ensures WithoutTrailingSeparators("C:\\w\\a") == "C:\\w\\a"
  {
    RootWSpelling();
    assert DirectoryName("C:\\w\\a") == "C:\\w" by {
      assert ScanBack("C:\\w\\a", 3, 6) == 4;
    }
    assert DirectoryName("C:\\w") == "C:\\";
    assert DirectoryName("C:\\") == [];
  }

  /** `C:\w\` names the folder `C:\w`, whose only folder below is `C:\w\a`. */
  lemma TreeWFolders()
    ensures DirectoryExists(TreeW(), RootW)
    ensures Subfolders(TreeW(), RootW) == {"C:\\w\\a"}
  {
    RootWSpelling();
    RootWBelow();
  }

  /**
    A root spelled with a trailing separator is the same folder: the watcher
    stores the root under that spelling and every subfolder under its listed
    one.
   */
  lemma TrailingSeparatorRootWatchesSubfolders()
    ensures Create(TreeW(), RootW, None, true, 0).Ok?
    ensures Create(TreeW(), RootW, None, true, 0).value.snapshots.Keys == {RootW, "C:\\w\\a"}
    ensures Create(TreeW(), RootW, None, true, 0).value.snapshots["C:\\w\\a"].contents == []
  {
    TreeWFolders();
  }

  /** A path whose existing folder has no stored snapshot yet reports nothing: the first access only stores. */
  lemma FirstAccessReportsNothing(w: Watcher, fs: FileSystem, path: string, latency: Ticks)
    requires latency >= 0
    requires DirectoryExists(fs, DirectoryName(path)) && DirectoryName(path) !in w.snapshots
    ensures GetChanges(w, fs, [path], latency).0 == []
  {
    GetChangesSingle(w, fs, path, latency);
  }

  /**
    With a root spelled with trailing separators, the folder of a file
    directly under the root comes back in the bare spelling, a key the new
    watcher's store does not hold: the first change directly under the root
    is absorbed by the store's get-or-create and reported as nothing.
   */
  lemma TrailingSeparatorRootMissesFirstChange(fs: FileSystem, root: string, path: string, latency: Ticks)
    requires latency >= 0
    requires DirectoryExists(fs, root)
    requires DirectoryName(path) == WithoutTrailingSeparators(root) != root
    ensures Create(fs, root, None, true, 0).Ok?
    ensures DirectoryName(path) !in Create(fs, root, None, true, 0).value.snapshots
    ensures GetChanges(Create(fs, root, None, true, 0).value, fs, [path], latency).0 == []
  {
    var bare := WithoutTrailingSeparators(root);
    if bare in Subfolders(fs, root) {
      SubfolderIsLonger(root, bare);
    }
    TrimmedSpellings(root);
    FirstAccessReportsNothing(Create(fs, root, None, true, 0).value, fs, path, latency);
  }

  /** An instance: watching `C:\w\` with a latency of 250 ms, a new file `C:\w\f` is not reported. */
  lemma TrailingSeparatorRootExample()
    ensures var added := FileSystemObject(3, "C:\\w\\f", 0);
            var fs := TreeW()["C:\\w" := [FileSystemObject(2, "C:\\w\\a", 0), added]];
            Create(fs, RootW, None, true, 0).Ok? &&
            GetChanges(Create(fs, RootW, None, true, 0).value, fs, [added.filename], 250 * TicksPerMillisecond).0 == []
  {
    var added := FileSystemObject(3, "C:\\w\\f", 0);
    var fs := TreeW()["C:\\w" := [FileSystemObject(2, "C:\\w\\a", 0), added]];
    assert WithoutTrailingSeparators(RootW) == "C:\\w" by {
      assert TrimSeparators(RootW, 3, 5) == 4;
    }
    assert DirectoryName(added.filename) == "C:\\w" by {
      assert ScanBack(added.filename, 3, 6) == 4;
    }
    TrailingSeparatorRootMissesFirstChange(fs, RootW, added.filename, 250 * TicksPerMillisecond);
  }
}

=== FILE: snapshot.dfy ===
/**
  A snapshot: the immediate children of one folder at one instant, ordered
  by id, and the merge that lists the changes from an older snapshot to a
  newer one.
 */
module Snapshots {
  import opened FileSystemModel
  import opened FileSystemChanges

  datatype Snapshot = Snapshot(contents: seq<FileSystemObject>)

  /** Ordering of snapshot entries: by id alone, as an unsigned comparison yielding -1, 0 or 1. */
  function CompareTo(a: FileSystemObject, b: FileSystemObject): (r: int)
    ensures r == -1 || r == 0 || r == 1
    ensures r < 0 <==> a.id < b.id
    ensures r == 0 <==> a.id == b.id
    ensures r > 0 <==> b.id < a.id
  {
    if a.id < b.id then -1 else if a.id == b.id then 0 else 1
  }

  predicate SortedById(s: seq<FileSystemObject>) {
    forall i, j :: 0 <= i < j < |s| ==> s[i].id <= s[j].id
  }

  predicate StrictlySortedById(s: seq<FileSystemObject>) {
    forall i, j :: 0 <= i < j < |s| ==> s[i].id < s[j].id
  }

  /** No two entries share an id, as the stable identity function promises within one folder. */
  predicate DistinctIds(s: seq<FileSystemObject>) {
    forall i, j :: 0 <= i < j < |s| ==> s[i].id != s[j].id
  }

  lemma PrependSorted(x: FileSystemObject, s: seq<FileSystemObject>)
    requires SortedById(s)
    requires forall y :: y in s ==> x.id <= y.id
    ensures SortedById([x] + s)
  {
    var r := [x] + s;
    forall i, j | 0 <= i < j < |r| ensures r[i].id <= r[j].id {
      if i == 0 {
        assert r[j] == s[j - 1];
      } else {
        assert r[i] == s[i - 1] && r[j] == s[j - 1];
      }
    }
  }

  function Insert(o: FileSystemObject, s: seq<FileSystemObject>): (r: seq<FileSystemObject>)
    requires SortedById(s)
    ensures SortedById(r)
    ensures multiset(r) == multiset(s) + multiset{o}
    ensures |r| == |s| + 1
  {
    if s == [] || o.id <= s[0].id then
      PrependSorted(o, s);
      [o] + s
    else
      var rest := Insert(o, s[1..]);
      assert s == [s[0]] + s[1..];
      assert forall y :: y in rest ==> s[0].id <= y.id by {
        forall y | y in rest ensures s[0].id <= y.id {
          assert y in multiset(rest);
          if y != o {
            assert y in multiset(s[1..]);
            var k :| 0 <= k < |s[1..]| && s[1..][k] == y;
            assert s[k + 1] == y;
          }
        }
      }
      PrependSorted(s[0], rest);
      [s[0]] + rest
  }

  /** Sorts a folder listing by id (the order `CompareTo` defines). */
  function SortById(s: seq<FileSystemObject>): (r: seq<FileSystemObject>)
    ensures SortedById(r)
    ensures multiset(r) == multiset(s)
    ensures |r| == |s|
  {
    if s == [] then []
    else
      assert s == [s[0]] + s[1..];
      Insert(s[0], SortById(s[1..]))
  }

  /** The snapshot built from a folder listing. */
  function SnapshotOf(listing: seq<FileSystemObject>): (r: Snapshot)
    ensures SortedById(r.contents)
    ensures multiset(r.contents) == multiset(listing)
  {
    Snapshot(SortById(listing))
  }

  /** Takes a snapshot of `folder`; enumerating a folder that does not exist fails. */
  function TakeSnapshot(fs: FileSystem, folder: string): (r: Result<Snapshot>)
    ensures r.Ok? <==> DirectoryExists(fs, folder)
    ensures r.Ok? ==> SortedById(r.value.contents) && multiset(r.value.contents) == multiset(Listing(fs, folder))
    ensures r.Err? ==> r.error == DirectoryNotFound(folder)
  {
    if DirectoryExists(fs, folder) then Ok(SnapshotOf(Listing(fs, folder))) else Err(DirectoryNotFound(folder))
  }

  /** One Add per entry, in order. */
  function AddAll(s: seq<FileSystemObject>): (r: seq<FileSystemChange>)
    ensures |r| == |s|
    ensures forall i :: 0 <= i < |s| ==> r[i] == Added(s[i].filename)
  {
    if s == [] then [] else [FileSystemChange.AddOf(s[0])] + AddAll(s[1..])
  }

  /** One Delete per entry, in order. */
  function DeleteAll(s: seq<FileSystemObject>): (r: seq<FileSystemChange>)
    ensures |r| == |s|
    ensures forall i :: 0 <= i < |s| ==> r[i] == Deleted(s[i].filename)
  {
    if s == [] then [] else [FileSystemChange.DeleteOf(s[0])] + DeleteAll(s[1..])
  }

  /**
    The changes for one object present in both snapshots: a Rename when its
    name changed, then a Change when its write time advanced by more than
    `latency`.
   */
  function MatchedChanges(before: FileSystemObject, after: FileSystemObject, latency: Ticks): (r: seq<FileSystemChange>)
    ensures |r| <= 2
    ensures Renamed(before.filename, after.filename) in r <==> before.filename != after.filename
    ensures Changed(after.filename) in r <==> after.lastWriteTime - before.lastWriteTime > latency
    ensures forall c :: c in r ==> c == Renamed(before.filename, after.filename) || c == Changed(after.filename)
    ensures |r| == 2 ==> r[0].Renamed? && r[1].Changed?
  {
    (if before.filename != after.filename then [FileSystemChange.RenameOf(before, after)] else []) +
    (if after.lastWriteTime - before.lastWriteTime > latency then [FileSystemChange.ChangeOf(after)] else [])
  }

  /**
    The changes from snapshot contents `before` to the more recent `after`,
    both ordered by id: a two-cursor merge. An id only in `before` is a
    Delete, an id only in `after` is an Add, and a shared id yields its
    `MatchedChanges`; once one side is exhausted the rest of the other side
    is flushed as Adds or Deletes.
   */
  function Diff(before: seq<FileSystemObject>, after: seq<FileSystemObject>, latency: Ticks): (r: seq<FileSystemChange>)
    ensures |r| <= |before| + |after|
    decreases |before| + |after|
  {
    if before == [] then AddAll(after)
    else if after == [] then DeleteAll(before)
    else
      var compare := CompareTo(before[0], after[0]);
      if compare < 0 then [FileSystemChange.DeleteOf(before[0])] + Diff(before[1..], after, latency)
      else if compare > 0 then [FileSystemChange.AddOf(after[0])] + Diff(before, after[1..], latency)
      else MatchedChanges(before[0], after[0], latency) + Diff(before[1..], after[1..], latency)
  }

  lemma AppendAssoc<T>(a: seq<T>, b: seq<T>, c: seq<T>)
    ensures (a + b) + c == a + (b + c)
  {
  }

  /** The merge from cursors `i` and `j` when `before` is used up: the rest of `after` are Adds. */
  lemma FlushAdds(before: seq<FileSystemObject>, after: seq<FileSystemObject>, j: nat, latency: Ticks)
    requires j <= |after|
    ensures Diff(before[|before|..], after[j..], latency) == AddAll(after[j..])
  {
    assert before[|before|..] == [];
  }

  /** The merge from cursors `i` and `j` when `after` is used up: the rest of `before` are Deletes. */
  lemma FlushDeletes(before: seq<FileSystemObject>, after: seq<FileSystemObject>, i: nat, latency: Ticks)
    requires i < |before|
    ensures Diff(before[i..], after[|after|..], latency) == DeleteAll(before[i..])
  {
    assert after[|after|..] == [];
  }

  /**
    One step of the merge from cursors `i` and `j`: the changes emitted so
    far, followed by `step`, followed by the merge from the advanced cursors,
    still make up the whole merge.
   */
  lemma MergeStep(before: seq<FileSystemObject>, after: seq<FileSystemObject>, i: nat, j: nat, latency: Ticks,
                  done: seq<FileSystemChange>, step: seq<FileSystemChange>)
    requires i < |before| && j < |after|
    requires done + Diff(before[i..], after[j..], latency) == Diff(before, after, latency)
    requires before[i].id < after[j].id ==> step == [Deleted(before[i].filename)]
    requires after[j].id < before[i].id ==> step == [Added(after[j].filename)]
    requires before[i].id == after[j].id ==> step == MatchedChanges(before[i], after[j], latency)
    ensures before[i].id < after[j].id ==>
      (done + step) + Diff(before[i + 1..], after[j..], latency) == Diff(before, after, latency)
    ensures after[j].id < before[i].id ==>
      (done + step) + Diff(before[i..], after[j + 1..], latency) == Diff(before, after, latency)
    ensures before[i].id == after[j].id ==>
      (done + step) + Diff(before[i + 1..], after[j + 1..], latency) == Diff(before, after, latency)
  {
    assert before[i..][1..] == before[i + 1..];
    assert after[j..][1..] == after[j + 1..];
    var rest := if before[i].id < after[j].id then Diff(before[i + 1..], after[j..], latency)
                else if after[j].id < before[i].id then Diff(before[i..], after[j + 1..], latency)
                else Diff(before[i + 1..], after[j + 1..], latency);
    assert Diff(before[i..], after[j..], latency) == step + rest;
    AppendAssoc(done, step, rest);
  }

  /** Lists the changes between `older` and the more recent `current`, with two cursors. */
  method EnumerateDifferences(older: Snapshot, current: Snapshot, latency: Ticks) returns (changes: seq<FileSystemChange>)
    ensures changes == Diff(older.contents, current.contents, latency)
  {
    var before := older.contents;
    var after := current.contents;
    if |before| == 0 {
      return AddAll(after);
    }
    if |after| == 0 {
      return DeleteAll(before);
    }

    var max := if |before| < |after| then |after| else |before|;
    var oldSnapshotIndex := 0;
    var currentSnapshotIndex := 0;
    changes := [];
    assert before[0..] == before && after[0..] == after;

    while oldSnapshotIndex < max || currentSnapshotIndex < max
      invariant 0 <= oldSnapshotIndex <= |before|
      invariant 0 <= currentSnapshotIndex <= |after|
      invariant changes + Diff(before[oldSnapshotIndex..], after[currentSnapshotIndex..], latency)
                == Diff(before, after, latency)
      decreases |before| - oldSnapshotIndex + |after| - currentSnapshotIndex
    {
      if oldSnapshotIndex == |before| {
        // no more objects in the old snapshot: the rest of the current one were added
        FlushAdds(before, after, currentSnapshotIndex, latency);
        if currentSnapshotIndex < |after| {
          changes := changes + AddAll(after[currentSnapshotIndex..]);
        }
        break;
      }

      if currentSnapshotIndex == |after| {
        // no more objects in the current snapshot: the rest of the old one were deleted
        FlushDeletes(before, after, oldSnapshotIndex, latency);
        if oldSnapshotIndex < |before| {
          changes := changes + DeleteAll(before[oldSnapshotIndex..]);
        }
        break;
      }

      var item := before[oldSnapshotIndex];
      var snapshotItem := after[currentSnapshotIndex];
      ghost var done := changes;
      var compare := CompareTo(item, snapshotItem);
      if compare < 0 {
        // only in the old snapshot: deleted
        changes := changes + [FileSystemChange.DeleteOf(item)];
        MergeStep(before, after, oldSnapshotIndex, currentSnapshotIndex, latency, done, [FileSystemChange.DeleteOf(item)]);
        oldSnapshotIndex := oldSnapshotIndex + 1;
      } else if compare > 0 {
        // only in the current snapshot: added
        changes := changes + [FileSystemChange.AddOf(snapshotItem)];
        MergeStep(before, after, oldSnapshotIndex, currentSnapshotIndex, latency, done, [FileSystemChange.AddOf(snapshotItem)]);
        currentSnapshotIndex := currentSnapshotIndex + 1;
      } else {
        // in both: renamed, and possibly written to
        if item.filename != snapshotItem.filename {
          changes := changes + [FileSystemChange.RenameOf(item, snapshotItem)];
        }
        if snapshotItem.lastWriteTime - item.lastWriteTime > latency {
          changes := changes + [FileSystemChange.ChangeOf(snapshotItem)];
        }
        assert changes == done + MatchedChanges(item, snapshotItem, latency);
        MergeStep(before, after, oldSnapshotIndex, currentSnapshotIndex, latency, done, MatchedChanges(item, snapshotItem, latency));
        oldSnapshotIndex := oldSnapshotIndex + 1;
        currentSnapshotIndex := currentSnapshotIndex + 1;
      }
    }
    return changes;
  }
}

=== FILE: snapshot_properties.dfy ===
/**
  What the snapshot merge computes, stated against definitions that do not
  merge: the Adds are the entries of the newer snapshot whose id the older
  one lacks, the Deletes the converse, and the Renames and Changes are the
  per-object changes of the ids both share. The changes also come out in
  ascending id order, and equal snapshots have no changes.
 */
module SnapshotProperties {
  import opened FileSystemModel
  import opened FileSystemChanges
  import opened Snapshots

  // ---------------------------------------------------------------------
  // Reference definitions
  // ---------------------------------------------------------------------

  function Ids(s: seq<FileSystemObject>): set<FileId> {
    set o | o in s :: o.id
  }

  function Filenames(s: seq<FileSystemObject>): seq<string> {
    if s == [] then [] else [s[0].filename] + Filenames(s[1..])
  }

  /** The entries of `s`, in order, whose id does not occur in `other`. */
  function OnlyIn(s: seq<FileSystemObject>, other: seq<FileSystemObject>): seq<FileSystemObject> {
    if s == [] then []
    else (if s[0].id in Ids(other) then [] else [s[0]]) + OnlyIn(s[1..], other)
  }

  /** The first entry of `s` with id `id`. */
  function Lookup(s: seq<FileSystemObject>, id: FileId): (r: FileSystemObject)
    requires id in Ids(s)
    ensures r in s && r.id == id
  {
    if s[0].id == id then s[0]
    else
      assert id in Ids(s[1..]) by {
        var o :| o in s && o.id == id;
        assert o != s[0];
      }
      Lookup(s[1..], id)
  }

  /** For each entry of `before` whose id `after` also holds, in order, the changes of that one object. */
  function UpdatesOf(before: seq<FileSystemObject>, after: seq<FileSystemObject>, latency: Ticks): seq<FileSystemChange> {
    if before == [] then []
    else
      (if before[0].id in Ids(after) then MatchedChanges(before[0], Lookup(after, before[0].id), latency) else []) +
      UpdatesOf(before[1..], after, latency)
  }

  /** The names carried by the Adds of `cs`, in order. */
  function AddedNames(cs: seq<FileSystemChange>): seq<string> {
    if cs == [] then [] else (if cs[0].Added? then [cs[0].fullName] else []) + AddedNames(cs[1..])
  }

  /** The names carried by the Deletes of `cs`, in order. */
  function DeletedNames(cs: seq<FileSystemChange>): seq<string> {
    if cs == [] then [] else (if cs[0].Deleted? then [cs[0].fullName] else []) + DeletedNames(cs[1..])
  }

  /** The Renames and Changes of `cs`, in order. */
  function Updates(cs: seq<FileSystemChange>): seq<FileSystemChange> {
    if cs == [] then [] else (if cs[0].Renamed? || cs[0].Changed? then [cs[0]] else []) + Updates(cs[1..])
  }

  /** The entries of `s` with an id below `t`. */
  function Below(s: seq<FileSystemObject>, t: int): seq<FileSystemObject> {
    if s == [] then [] else (if s[0].id < t then [s[0]] else []) + Below(s[1..], t)
  }

  /** The entries of `s` with an id of at least `t`. */
  function AtLeast(s: seq<FileSystemObject>, t: int): seq<FileSystemObject> {
    if s == [] then [] else (if s[0].id >= t then [s[0]] else []) + AtLeast(s[1..], t)
  }

  /** The entries of `s` with id `x`. */
  function WithId(s: seq<FileSystemObject>, x: FileId): seq<FileSystemObject> {
    if s == [] then [] else (if s[0].id == x then [s[0]] else []) + WithId(s[1..], x)
  }

  // ---------------------------------------------------------------------
  // Helpers
  // ---------------------------------------------------------------------

  lemma IdsOfTail(s: seq<FileSystemObject>)
    requires s != []
    ensures Ids(s) == {s[0].id} + Ids(s[1..])
  {
    assert s == [s[0]] + s[1..];
    forall x | x in Ids(s) ensures x in {s[0].id} + Ids(s[1..]) {
      var o :| o in s && o.id == x;
      if o != s[0] {
        assert o in s[1..];
      }
    }
  }

  lemma SortedHead(s: seq<FileSystemObject>)
    requires SortedById(s) && s != []
    ensures forall x :: x in Ids(s) ==> s[0].id <= x
  {
    forall x | x in Ids(s) ensures s[0].id <= x {
      var o :| o in s && o.id == x;
      var k :| 0 <= k < |s| && s[k] == o;
    }
  }

  lemma StrictHead(s: seq<FileSystemObject>)
    requires StrictlySortedById(s) && s != []
    ensures s[0].id !in Ids(s[1..])
  {
    forall o | o in s[1..] ensures o.id != s[0].id {
      var k :| 0 <= k < |s[1..]| && s[1..][k] == o;
      assert s[k + 1] == o;
    }
  }

  lemma AddedNamesAppend(a: seq<FileSystemChange>, b: seq<FileSystemChange>)
    ensures AddedNames(a + b) == AddedNames(a) + AddedNames(b)
  {
    if a != [] {
      assert (a + b)[1..] == a[1..] + b;
      AddedNamesAppend(a[1..], b);
    } else {
      assert a + b == b;
    }
  }

  lemma DeletedNamesAppend(a: seq<FileSystemChange>, b: seq<FileSystemChange>)
    ensures DeletedNames(a + b) == DeletedNames(a) + DeletedNames(b)
  {
    if a != [] {
      assert (a + b)[1..] == a[1..] + b;
      DeletedNamesAppend(a[1..], b);
    } else {
      assert a + b == b;
    }
  }

  lemma UpdatesAppend(a: seq<FileSystemChange>, b: seq<FileSystemChange>)
    ensures Updates(a + b) == Updates(a) + Updates(b)
  {
    if a != [] {
      assert (a + b)[1..] == a[1..] + b;
      UpdatesAppend(a[1..], b);
    } else {
      assert a + b == b;
    }
  }

  lemma ProjectAddAll(s: seq<FileSystemObject>)
    ensures AddedNames(AddAll(s)) == Filenames(s)
    ensures DeletedNames(AddAll(s)) == []
    ensures Updates(AddAll(s)) == []
  {
    if s != [] {
      assert AddAll(s)[1..] == AddAll(s[1..]);
      ProjectAddAll(s[1..]);
    }
  }

  lemma ProjectDeleteAll(s: seq<FileSystemObject>)
    ensures AddedNames(DeleteAll(s)) == []
    ensures DeletedNames(DeleteAll(s)) == Filenames(s)
    ensures Updates(DeleteAll(s)) == []
  {
    if s != [] {
      assert DeleteAll(s)[1..] == DeleteAll(s[1..]);
      ProjectDeleteAll(s[1..]);
    }
  }

  lemma ProjectMatched(before: FileSystemObject, after: FileSystemObject, latency: Ticks)
    ensures AddedNames(MatchedChanges(before, after, latency)) == []
    ensures DeletedNames(MatchedChanges(before, after, latency)) == []
    ensures Updates(MatchedChanges(before, after, latency)) == MatchedChanges(before, after, latency)
  {
    var rename := Renamed(before.filename, after.filename);
    var change := Changed(after.filename);
    var r := MatchedChanges(before, after, latency);
    if before.filename != after.filename && after.lastWriteTime - before.lastWriteTime > latency {
      assert r == [rename] + [change];
      ProjectSingle(rename);
      ProjectSingle(change);
      AddedNamesAppend([rename], [change]);
      DeletedNamesAppend([rename], [change]);
      UpdatesAppend([rename], [change]);
    } else if before.filename != after.filename {
      assert r == [rename];
      assert r[1..] == [];
    } else if after.lastWriteTime - before.lastWriteTime > latency {
      assert r == [change];
      assert r[1..] == [];
    } else {
      assert r == [];
    }
  }

  /** The merge's step on two non-empty snapshots. */
  lemma DiffUnfold(before: seq<FileSystemObject>, after: seq<FileSystemObject>, latency: Ticks)
    requires before != [] && after != []
    ensures before[0].id < after[0].id ==>
      Diff(before, after, latency) == [Deleted(before[0].filename)] + Diff(before[1..], after, latency)
    ensures after[0].id < before[0].id ==>
      Diff(before, after, latency) == [Added(after[0].filename)] + Diff(before, after[1..], latency)
    ensures before[0].id == after[0].id ==>
      Diff(before, after, latency) == MatchedChanges(before[0], after[0], latency) + Diff(before[1..], after[1..], latency)
  {
  }

  lemma ProjectSingle(c: FileSystemChange)
    ensures AddedNames([c]) == if c.Added? then [c.fullName] else []
    ensures DeletedNames([c]) == if c.Deleted? then [c.fullName] else []
    ensures Updates([c]) == if c.Renamed? || c.Changed? then [c] else []
  {
    assert [c][1..] == [];
  }

  lemma OnlyInFromEmpty(s: seq<FileSystemObject>)
    ensures OnlyIn(s, []) == s
  {
    if s != [] {
      OnlyInFromEmpty(s[1..]);
    }
  }

  /** Dropping the head of `other` does not matter when no entry of `s` has its id. */
  lemma OnlyInDropAbsent(s: seq<FileSystemObject>, other: seq<FileSystemObject>)
    requires other != [] && other[0].id !in Ids(s)
    ensures OnlyIn(s, other) == OnlyIn(s, other[1..])
  {
    IdsOfTail(other);
    if s != [] {
      IdsOfTail(s);
      OnlyInDropAbsent(s[1..], other);
    }
  }

  lemma LookupDropAbsent(s: seq<FileSystemObject>, id: FileId)
    requires s != [] && id in Ids(s) && s[0].id != id
    ensures id in Ids(s[1..]) && Lookup(s, id) == Lookup(s[1..], id)
  {
    IdsOfTail(s);
  }

  lemma UpdatesOfToEmpty(before: seq<FileSystemObject>, latency: Ticks)
    ensures UpdatesOf(before, [], latency) == []
  {
    if before != [] {
      UpdatesOfToEmpty(before[1..], latency);
    }
  }

  lemma UpdatesOfDropAbsent(before: seq<FileSystemObject>, after: seq<FileSystemObject>, latency: Ticks)
    requires after != [] && after[0].id !in Ids(before)
    ensures UpdatesOf(before, after, latency) == UpdatesOf(before, after[1..], latency)
  {
    IdsOfTail(after);
    if before != [] {
      IdsOfTail(before);
      if before[0].id in Ids(after) {
        LookupDropAbsent(after, before[0].id);
      }
      UpdatesOfDropAbsent(before[1..], after, latency);
    }
  }

  lemma DiffToEmpty(before: seq<FileSystemObject>, latency: Ticks)
    ensures Diff(before, [], latency) == DeleteAll(before)
  {
  }

  // ---------------------------------------------------------------------
  // The merge against the reference definitions
  // ---------------------------------------------------------------------

  /** When the older snapshot is empty every entry of the newer one is an Add, in order; two empty snapshots have no changes. */
  lemma DiffFromEmptySnapshot(after: seq<FileSystemObject>, latency: Ticks)
    ensures |Diff([], after, latency)| == |after|
    ensures forall i :: 0 <= i < |after| ==> Diff([], after, latency)[i] == Added(after[i].filename)
    ensures after == [] ==> Diff([], after, latency) == []
  {
  }

  /** When only the newer snapshot is empty every entry of the older one is a Delete, in order. */
  lemma DiffToEmptySnapshot(before: seq<FileSystemObject>, latency: Ticks)
    requires before != []
    ensures |Diff(before, [], latency)| == |before|
    ensures forall i :: 0 <= i < |before| ==> Diff(before, [], latency)[i] == Deleted(before[i].filename)
  {
  }

  /** The Adds are exactly the entries of the newer snapshot whose id the older one lacks, in id order. */
  lemma {:induction false} DiffAdds(before: seq<FileSystemObject>, after: seq<FileSystemObject>, latency: Ticks)
    requires StrictlySortedById(before) && StrictlySortedById(after)
    ensures AddedNames(Diff(before, after, latency)) == Filenames(OnlyIn(after, before))
    decreases |before| + |after|
  {
    if before == [] {
      ProjectAddAll(after);
      OnlyInFromEmpty(after);
    } else if after == [] {
      ProjectDeleteAll(before);
    } else {
      DiffUnfold(before, after, latency);
      if before[0].id < after[0].id {
        DiffAddsDelete(before, after, latency);
      } else if after[0].id < before[0].id {
        DiffAddsAdd(before, after, latency);
      } else {
        DiffAddsMatch(before, after, latency);
      }
    }
  }

  lemma {:induction false} DiffAddsDelete(before: seq<FileSystemObject>, after: seq<FileSystemObject>, latency: Ticks)
    requires StrictlySortedById(before) && StrictlySortedById(after)
    requires before != [] && after != [] && before[0].id < after[0].id
    ensures AddedNames(Diff(before, after, latency)) == Filenames(OnlyIn(after, before))
    decreases |before| + |after|, 0
  {
    var rest := Diff(before[1..], after, latency);
    DiffUnfold(before, after, latency);
    DiffAdds(before[1..], after, latency);
    ProjectSingle(Deleted(before[0].filename));
    AddedNamesAppend([Deleted(before[0].filename)], rest);
    SortedHead(after);
    OnlyInDropAbsent(after, before);
  }

  lemma {:induction false} DiffAddsAdd(before: seq<FileSystemObject>, after: seq<FileSystemObject>, latency: Ticks)
    requires StrictlySortedById(before) && StrictlySortedById(after)
    requires before != [] && after != [] && after[0].id < before[0].id
    ensures AddedNames(Diff(before, after, latency)) == Filenames(OnlyIn(after, before))
    decreases |before| + |after|, 0
  {
    var rest := Diff(before, after[1..], latency);
    DiffUnfold(before, after, latency);
    DiffAdds(before, after[1..], latency);
    ProjectSingle(Added(after[0].filename));
    AddedNamesAppend([Added(after[0].filename)], rest);
    SortedHead(before);
    assert after[0].id !in Ids(before);
    assert OnlyIn(after, before) == [after[0]] + OnlyIn(after[1..], before);
  }

  lemma {:induction false} DiffAddsMatch(before: seq<FileSystemObject>, after: seq<FileSystemObject>, latency: Ticks)
    requires StrictlySortedById(before) && StrictlySortedById(after)
    requires before != [] && after != [] && after[0].id == before[0].id
    ensures AddedNames(Diff(before, after, latency)) == Filenames(OnlyIn(after, before))
    decreases |before| + |after|, 0
  {
    var step := MatchedChanges(before[0], after[0], latency);
    var rest := Diff(before[1..], after[1..], latency);
    DiffUnfold(before, after, latency);
    DiffAdds(before[1..], after[1..], latency);
    ProjectMatched(before[0], after[0], latency);
    AddedNamesAppend(step, rest);
    assert after[0].id in Ids(before);
    assert OnlyIn(after, before) == OnlyIn(after[1..], before);
    StrictHead(after);
    OnlyInDropAbsent(after[1..], before);
  }

  /** The Deletes are exactly the entries of the older snapshot whose id the newer one lacks, in id order. */
  lemma {:induction false} DiffDeletes(before: seq<FileSystemObject>, after: seq<FileSystemObject>, latency: Ticks)
    requires StrictlySortedById(before) && StrictlySortedById(after)
    ensures DeletedNames(Diff(before, after, latency)) == Filenames(OnlyIn(before, after))
    decreases |before| + |after|
  {
    if before == [] {
      ProjectAddAll(after);
    } else if after == [] {
      ProjectDeleteAll(before);
      OnlyInFromEmpty(before);
    } else {
      DiffUnfold(before, after, latency);
      if before[0].id < after[0].id {
        DiffDeletesDelete(before, after, latency);
      } else if after[0].id < before[0].id {
        DiffDeletesAdd(before, after, latency);
      } else {
        DiffDeletesMatch(before, after, latency);
      }
    }
  }

  lemma {:induction false} DiffDeletesDelete(before: seq<FileSystemObject>, after: seq<FileSystemObject>, latency: Ticks)
    requires StrictlySortedById(before) && StrictlySortedById(after)
    requires before != [] && after != [] && before[0].id < after[0].id
    ensures DeletedNames(Diff(before, after, latency)) == Filenames(OnlyIn(before, after))
    decreases |before| + |after|, 0
  {
    var rest := Diff(before[1..], after, latency);
    DiffUnfold(before, after, latency);
    DiffDeletes(before[1..], after, latency);
    ProjectSingle(Deleted(before[0].filename));
    DeletedNamesAppend([Deleted(before[0].filename)], rest);
    SortedHead(after);
    assert before[0].id !in Ids(after);
    assert OnlyIn(before, after) == [before[0]] + OnlyIn(before[1..], after);
  }

  lemma {:induction false} DiffDeletesAdd(before: seq<FileSystemObject>, after: seq<FileSystemObject>, latency: Ticks)
    requires StrictlySortedById(before) && StrictlySortedById(after)
    requires before != [] && after != [] && after[0].id < before[0].id
    ensures DeletedNames(Diff(before, after, latency)) == Filenames(OnlyIn(before, after))
    decreases |before| + |after|, 0
  {
    var rest := Diff(before, after[1..], latency);
    DiffUnfold(before, after, latency);
    DiffDeletes(before, after[1..], latency);
    ProjectSingle(Added(after[0].filename));
    DeletedNamesAppend([Added(after[0].filename)], rest);
    SortedHead(before);
    OnlyInDropAbsent(before, after);
  }

  lemma {:induction false} DiffDeletesMatch(before: seq<FileSystemObject>, after: seq<FileSystemObject>, latency: Ticks)
    requires StrictlySortedById(before) && StrictlySortedById(after)
    requires before != [] && after != [] && after[0].id == before[0].id
    ensures DeletedNames(Diff(before, after, latency)) == Filenames(OnlyIn(before, after))
    decreases |before| + |after|, 0
  {
    var step := MatchedChanges(before[0], after[0], latency);
    var rest := Diff(before[1..], after[1..], latency);
    DiffUnfold(before, after, latency);
    DiffDeletes(before[1..], after[1..], latency);
    ProjectMatched(before[0], after[0], latency);
    DeletedNamesAppend(step, rest);
    assert before[0].id in Ids(after);
    assert OnlyIn(before, after) == OnlyIn(before[1..], after);
    StrictHead(before);
    OnlyInDropAbsent(before[1..], after);
  }

  /**
    The Renames and Changes are exactly, in id order, the changes of each
    object whose id both snapshots hold: a Rename from its old name to its
    new one when they differ, then a Change when its write time advanced by
    more than `latency`.
   */
  lemma {:induction false} DiffUpdates(before: seq<FileSystemObject>, after: seq<FileSystemObject>, latency: Ticks)
    requires StrictlySortedById(before) && StrictlySortedById(after)
    ensures Updates(Diff(before, after, latency)) == UpdatesOf(before, after, latency)
    decreases |before| + |after|
  {
    if before == [] {
      ProjectAddAll(after);
    } else if after == [] {
      ProjectDeleteAll(before);
      UpdatesOfToEmpty(before, latency);
    } else {
      SortedHead(before);
      SortedHead(after);
      IdsOfTail(before);
      IdsOfTail(after);
      if before[0].id < after[0].id {
        DiffUpdates(before[1..], after, latency);
        UpdatesAppend([FileSystemChange.DeleteOf(before[0])], Diff(before[1..], after, latency));
      } else if after[0].id < before[0].id {
        DiffUpdates(before, after[1..], latency);
        UpdatesAppend([FileSystemChange.AddOf(after[0])], Diff(before, after[1..], latency));
        UpdatesOfDropAbsent(before, after, latency);
      } else {
        DiffUpdates(before[1..], after[1..], latency);
        ProjectMatched(before[0], after[0], latency);
        UpdatesAppend(MatchedChanges(before[0], after[0], latency), Diff(before[1..], after[1..], latency));
        StrictHead(before);
        UpdatesOfDropAbsent(before[1..], after, latency);
      }
    }
  }

  /** A snapshot compared with itself has no changes, as long as the latency is not negative. */
  lemma {:induction false} DiffOfEqualIsEmpty(s: seq<FileSystemObject>, latency: Ticks)
    requires latency >= 0
    ensures Diff(s, s, latency) == []
  {
    if s != [] {
      DiffOfEqualIsEmpty(s[1..], latency);
    }
  }

  // ---------------------------------------------------------------------
  // Single edits: one added, removed or altered entry yields its own change
  // ---------------------------------------------------------------------

  /** Entries both snapshots start with contribute nothing. */
  lemma {:induction false} DiffCommonPrefix(p: seq<FileSystemObject>, before: seq<FileSystemObject>,
                                            after: seq<FileSystemObject>, latency: Ticks)
    requires latency >= 0
    ensures Diff(p + before, p + after, latency) == Diff(before, after, latency)
    decreases |p|
  {
    if p == [] {
      assert p + before == before && p + after == after;
    } else {
      var b, a := p + before, p + after;
      assert b[0] == p[0] && a[0] == p[0];
      assert b[1..] == p[1..] + before && a[1..] == p[1..] + after;
      assert MatchedChanges(p[0], p[0], latency) == [];
      DiffCommonPrefix(p[1..], before, after, latency);
    }
  }

  /** Removing one entry from a snapshot is reported as exactly one Delete of its name. */
  lemma DiffOfRemoval(p: seq<FileSystemObject>, x: FileSystemObject, s: seq<FileSystemObject>, latency: Ticks)
    requires latency >= 0
    requires StrictlySortedById(p + [x] + s)
    ensures Diff(p + [x] + s, p + s, latency) == [Deleted(x.filename)]
  {
    assert p + [x] + s == p + ([x] + s);
    DiffCommonPrefix(p, [x] + s, s, latency);
    if s != [] {
      assert (p + [x] + s)[|p|] == x && (p + [x] + s)[|p| + 1] == s[0];
      DiffOfEqualIsEmpty(s, latency);
      assert ([x] + s)[1..] == s;
    }
  }

  /** Adding one entry to a snapshot is reported as exactly one Add of its name. */
  lemma DiffOfInsertion(p: seq<FileSystemObject>, x: FileSystemObject, s: seq<FileSystemObject>, latency: Ticks)
    requires latency >= 0
    requires StrictlySortedById(p + [x] + s)
    ensures Diff(p + s, p + [x] + s, latency) == [Added(x.filename)]
  {
    assert p + [x] + s == p + ([x] + s);
    DiffCommonPrefix(p, s, [x] + s, latency);
    if s != [] {
      assert (p + [x] + s)[|p|] == x && (p + [x] + s)[|p| + 1] == s[0];
      DiffOfEqualIsEmpty(s, latency);
      assert ([x] + s)[1..] == s;
    }
  }

  /** Altering one entry, keeping its id, is reported as that entry's rename and/or change. */
  lemma DiffOfAlteration(p: seq<FileSystemObject>, before: FileSystemObject, after: FileSystemObject,
                         s: seq<FileSystemObject>, latency: Ticks)
    requires latency >= 0
    requires before.id == after.id
    ensures Diff(p + [before] + s, p + [after] + s, latency) == MatchedChanges(before, after, latency)
  {
    assert p + [before] + s == p + ([before] + s) && p + [after] + s == p + ([after] + s);
    DiffCommonPrefix(p, [before] + s, [after] + s, latency);
    assert ([before] + s)[1..] == s && ([after] + s)[1..] == s;
    DiffOfEqualIsEmpty(s, latency);
    assert MatchedChanges(before, after, latency) + [] == MatchedChanges(before, after, latency);
  }

  // ---------------------------------------------------------------------
  // Order: changes come out in ascending id order
  // ---------------------------------------------------------------------

  /** The changes concerning one id `x`, by the case it falls in. */
  function ChangesForId(before: seq<FileSystemObject>, after: seq<FileSystemObject>, x: FileId, latency: Ticks): seq<FileSystemChange> {
    if x in Ids(before) && x in Ids(after) then MatchedChanges(Lookup(before, x), Lookup(after, x), latency)
    else if x in Ids(before) then [Deleted(Lookup(before, x).filename)]
    else if x in Ids(after) then [Added(Lookup(after, x).filename)]
    else []
  }

  lemma AddAllAppend(x: seq<FileSystemObject>, y: seq<FileSystemObject>)
    ensures AddAll(x + y) == AddAll(x) + AddAll(y)
  {
  }

  lemma DeleteAllAppend(x: seq<FileSystemObject>, y: seq<FileSystemObject>)
    ensures DeleteAll(x + y) == DeleteAll(x) + DeleteAll(y)
  {
  }

  lemma AllAtLeast(s: seq<FileSystemObject>, t: int)
    requires forall x :: x in Ids(s) ==> t <= x
    ensures Below(s, t) == [] && AtLeast(s, t) == s
  {
    if s != [] {
      IdsOfTail(s);
      AllAtLeast(s[1..], t);
      assert s == [s[0]] + s[1..];
    }
  }

  lemma SortedSplit(s: seq<FileSystemObject>, t: int)
    requires SortedById(s)
    ensures s == Below(s, t) + AtLeast(s, t)
  {
    if s != [] {
      if s[0].id < t {
        SortedSplit(s[1..], t);
        assert s == [s[0]] + s[1..];
      } else {
        SortedHead(s);
        AllAtLeast(s, t);
      }
    }
  }

  /** Below a threshold that the head of a sorted `s` does not reach, nothing of `s` is left. */
  lemma HeadAtLeast(s: seq<FileSystemObject>, t: int)
    requires SortedById(s) && s != [] && t <= s[0].id
    ensures Below(s, t) == [] && AtLeast(s, t) == s
  {
    SortedHead(s);
    AllAtLeast(s, t);
  }

  lemma HeadBelow(s: seq<FileSystemObject>, t: int)
    requires s != [] && s[0].id < t
    ensures Below(s, t) != [] && Below(s, t)[0] == s[0] && Below(s, t)[1..] == Below(s[1..], t)
    ensures AtLeast(s, t) == AtLeast(s[1..], t)
  {
  }

  lemma {:induction false} DiffSplit(before: seq<FileSystemObject>, after: seq<FileSystemObject>, t: int, latency: Ticks)
    requires SortedById(before) && SortedById(after)
    ensures Diff(before, after, latency) ==
            Diff(Below(before, t), Below(after, t), latency) + Diff(AtLeast(before, t), AtLeast(after, t), latency)
    decreases |before| + |after|
  {
    if before == [] {
      SortedSplit(after, t);
      AddAllAppend(Below(after, t), AtLeast(after, t));
    } else if after == [] {
      SortedSplit(before, t);
      DeleteAllAppend(Below(before, t), AtLeast(before, t));
      DiffToEmpty(Below(before, t), latency);
      DiffToEmpty(AtLeast(before, t), latency);
    } else if t <= before[0].id && t <= after[0].id {
      HeadAtLeast(before, t);
      HeadAtLeast(after, t);
    } else if before[0].id < after[0].id {
      DiffSplitDelete(before, after, t, latency);
    } else if after[0].id < before[0].id {
      DiffSplitAdd(before, after, t, latency);
    } else {
      DiffSplitMatch(before, after, t, latency);
    }
  }

  lemma {:induction false} DiffSplitDelete(before: seq<FileSystemObject>, after: seq<FileSystemObject>, t: int, latency: Ticks)
    requires SortedById(before) && SortedById(after)
    requires before != [] && after != [] && before[0].id < after[0].id && before[0].id < t
    ensures Diff(before, after, latency) ==
            Diff(Below(before, t), Below(after, t), latency) + Diff(AtLeast(before, t), AtLeast(after, t), latency)
    decreases |before| + |after|, 0
  {
    var lowB, lowA := Below(before[1..], t), Below(after, t);
    var highB, highA := AtLeast(before[1..], t), AtLeast(after, t);
    var step := [Deleted(before[0].filename)];
    DiffUnfold(before, after, latency);
    DiffSplit(before[1..], after, t, latency);
    HeadBelow(before, t);
    if after[0].id < t {
      HeadBelow(after, t);
      DiffUnfold(Below(before, t), lowA, latency);
    } else {
      HeadAtLeast(after, t);
      DiffToEmpty(Below(before, t), latency);
      DiffToEmpty(lowB, latency);
    }
    assert Diff(Below(before, t), lowA, latency) == step + Diff(lowB, lowA, latency);
    AppendAssoc(step, Diff(lowB, lowA, latency), Diff(highB, highA, latency));
  }

  lemma {:induction false} DiffSplitAdd(before: seq<FileSystemObject>, after: seq<FileSystemObject>, t: int, latency: Ticks)
    requires SortedById(before) && SortedById(after)
    requires before != [] && after != [] && after[0].id < before[0].id && after[0].id < t
    ensures Diff(before, after, latency) ==
            Diff(Below(before, t), Below(after, t), latency) + Diff(AtLeast(before, t), AtLeast(after, t), latency)
    decreases |before| + |after|, 0
  {
    var lowB, lowA := Below(before, t), Below(after[1..], t);
    var highB, highA := AtLeast(before, t), AtLeast(after[1..], t);
    var step := [Added(after[0].filename)];
    DiffUnfold(before, after, latency);
    DiffSplit(before, after[1..], t, latency);
    HeadBelow(after, t);
    if before[0].id < t {
      HeadBelow(before, t);
      DiffUnfold(lowB, Below(after, t), latency);
    } else {
      HeadAtLeast(before, t);
    }
    assert Diff(lowB, Below(after, t), latency) == step + Diff(lowB, lowA, latency);
    AppendAssoc(step, Diff(lowB, lowA, latency), Diff(highB, highA, latency));
  }

  lemma {:induction false} DiffSplitMatch(before: seq<FileSystemObject>, after: seq<FileSystemObject>, t: int, latency: Ticks)
    requires SortedById(before) && SortedById(after)
    requires before != [] && after != [] && after[0].id == before[0].id && before[0].id < t
    ensures Diff(before, after, latency) ==
            Diff(Below(before, t), Below(after, t), latency) + Diff(AtLeast(before, t), AtLeast(after, t), latency)
    decreases |before| + |after|, 0
  {
    var lowB, lowA := Below(before[1..], t), Below(after[1..], t);
    var highB, highA := AtLeast(before[1..], t), AtLeast(after[1..], t);
    var step := MatchedChanges(before[0], after[0], latency);
    DiffUnfold(before, after, latency);
    DiffSplit(before[1..], after[1..], t, latency);
    HeadBelow(before, t);
    HeadBelow(after, t);
    DiffUnfold(Below(before, t), Below(after, t), latency);
    assert Diff(Below(before, t), Below(after, t), latency) == step + Diff(lowB, lowA, latency);
    AppendAssoc(step, Diff(lowB, lowA, latency), Diff(highB, highA, latency));
  }

  lemma SortedSuffix(p: seq<FileSystemObject>, q: seq<FileSystemObject>)
    requires SortedById(p + q)
    ensures SortedById(q)
  {
    forall i, j | 0 <= i < j < |q| ensures q[i].id <= q[j].id {
      assert q[i] == (p + q)[|p| + i] && q[j] == (p + q)[|p| + j];
    }
  }

  lemma BelowOfAtLeast(s: seq<FileSystemObject>, x: FileId)
    ensures Below(AtLeast(s, x), x + 1) == WithId(s, x)
  {
    if s != [] {
      BelowOfAtLeast(s[1..], x);
      var r := AtLeast(s, x);
      if s[0].id >= x {
        assert r[0] == s[0] && r[1..] == AtLeast(s[1..], x);
        assert Below(r, x + 1) == (if s[0].id < x + 1 then [s[0]] else []) + Below(r[1..], x + 1);
      } else {
        assert r == AtLeast(s[1..], x);
        assert WithId(s, x) == WithId(s[1..], x);
      }
    }
  }

  lemma AtLeastOfAtLeast(s: seq<FileSystemObject>, x: FileId)
    ensures AtLeast(AtLeast(s, x), x + 1) == AtLeast(s, x + 1)
  {
    if s != [] {
      AtLeastOfAtLeast(s[1..], x);
      var r := AtLeast(s, x);
      if s[0].id >= x {
        assert r[0] == s[0] && r[1..] == AtLeast(s[1..], x);
        assert AtLeast(r, x + 1) == (if s[0].id >= x + 1 then [s[0]] else []) + AtLeast(r[1..], x + 1);
      } else {
        assert r == AtLeast(s[1..], x);
        assert AtLeast(s, x + 1) == AtLeast(s[1..], x + 1);
      }
    }
  }

  lemma WithIdAbsent(s: seq<FileSystemObject>, x: FileId)
    requires x !in Ids(s)
    ensures WithId(s, x) == []
  {
    if s != [] {
      IdsOfTail(s);
      WithIdAbsent(s[1..], x);
    }
  }

  /** In a snapshot without repeated ids, an id names at most one entry. */
  lemma WithIdStrict(s: seq<FileSystemObject>, x: FileId)
    requires StrictlySortedById(s)
    ensures WithId(s, x) == if x in Ids(s) then [Lookup(s, x)] else []
  {
    if s == [] {
    } else {
      IdsOfTail(s);
      if s[0].id == x {
        StrictHead(s);
        WithIdAbsent(s[1..], x);
      } else {
        WithIdStrict(s[1..], x);
        if x in Ids(s) {
          LookupDropAbsent(s, x);
        }
      }
    }
  }

  lemma DiffOfOneId(before: seq<FileSystemObject>, after: seq<FileSystemObject>, x: FileId, latency: Ticks)
    requires StrictlySortedById(before) && StrictlySortedById(after)
    ensures Diff(WithId(before, x), WithId(after, x), latency) == ChangesForId(before, after, x, latency)
  {
    WithIdStrict(before, x);
    WithIdStrict(after, x);
    if x in Ids(before) && x in Ids(after) {
      var b, a := Lookup(before, x), Lookup(after, x);
      assert [b][1..] == [] && [a][1..] == [];
      assert Diff([b], [a], latency) == MatchedChanges(b, a, latency) + Diff([], [], latency);
    }
  }

  /**
    The changes concerning one id `x` sit, as a block, between the changes
    for the smaller ids and those for the larger ones: a Delete of the old
    entry when only the older snapshot has `x`, an Add when only the newer
    one has it, its Rename and Change when both have it, and nothing when
    neither has it.
   */
  lemma DiffAroundId(before: seq<FileSystemObject>, after: seq<FileSystemObject>, x: FileId, latency: Ticks)
    requires StrictlySortedById(before) && StrictlySortedById(after)
    ensures Diff(before, after, latency) ==
            Diff(Below(before, x), Below(after, x), latency) +
            ChangesForId(before, after, x, latency) +
            Diff(AtLeast(before, x + 1), AtLeast(after, x + 1), latency)
  {
    var highB, highA := AtLeast(before, x), AtLeast(after, x);
    DiffSplit(before, after, x, latency);
    SortedSplit(before, x);
    SortedSplit(after, x);
    SortedSuffix(Below(before, x), highB);
    SortedSuffix(Below(after, x), highA);
    DiffSplit(highB, highA, x + 1, latency);
    BelowOfAtLeast(before, x);
    BelowOfAtLeast(after, x);
    AtLeastOfAtLeast(before, x);
    AtLeastOfAtLeast(after, x);
    DiffOfOneId(before, after, x, latency);
  }

  // ---------------------------------------------------------------------
  // Building a snapshot: sorting by id
  // ---------------------------------------------------------------------

  lemma PrependStrict(x: FileSystemObject, s: seq<FileSystemObject>)
    requires StrictlySortedById(s)
    requires forall y :: y in s ==> x.id < y.id
    ensures StrictlySortedById([x] + s)
  {
    var r := [x] + s;
    forall i, j | 0 <= i < j < |r| ensures r[i].id < r[j].id {
      if i == 0 {
        assert r[j] == s[j - 1];
      } else {
        assert r[i] == s[i - 1] && r[j] == s[j - 1];
      }
    }
  }

  lemma {:induction false} InsertStrict(o: FileSystemObject, s: seq<FileSystemObject>)
    requires StrictlySortedById(s) && o.id !in Ids(s)
    ensures SortedById(s) && StrictlySortedById(Insert(o, s))
  {
    if s == [] || o.id <= s[0].id {
      forall y | y in s ensures o.id < y.id {
        var k :| 0 <= k < |s| && s[k] == y;
        assert s[0].id <= y.id;
      }
      PrependStrict(o, s);
    } else {
      IdsOfTail(s);
      InsertStrict(o, s[1..]);
      var rest := Insert(o, s[1..]);
      forall y | y in rest ensures s[0].id < y.id {
        assert y in multiset(rest);
        if y != o {
          assert y in multiset(s[1..]);
          var k :| 0 <= k < |s[1..]| && s[1..][k] == y;
          assert s[k + 1] == y;
        }
      }
      PrependStrict(s[0], rest);
    }
  }

  /** A listing without repeated ids sorts into strictly ascending id order, as the merge needs. */
  lemma {:induction false} SortStrict(s: seq<FileSystemObject>)
    requires DistinctIds(s)
    ensures StrictlySortedById(SortById(s))
  {
    if s != [] {
      SortStrict(s[1..]);
      var sorted := SortById(s[1..]);
      forall y | y in sorted ensures y.id != s[0].id {
        assert y in multiset(sorted);
        assert y in multiset(s[1..]);
        var k :| 0 <= k < |s[1..]| && s[1..][k] == y;
        assert s[k + 1] == y;
      }
      InsertStrict(s[0], sorted);
    }
  }

  lemma MultisetTail<T>(a: seq<T>, b: seq<T>)
    requires a != [] && b != [] && a[0] == b[0] && multiset(a) == multiset(b)
    ensures multiset(a[1..]) == multiset(b[1..])
  {
    assert a == [a[0]] + a[1..] && b == [b[0]] + b[1..];
    assert multiset(a[1..]) == multiset(a) - multiset{a[0]};
    assert multiset(b[1..]) == multiset(b) - multiset{b[0]};
  }

  lemma SortedUniqueHead(a: seq<FileSystemObject>, b: seq<FileSystemObject>)
    requires SortedById(a) && StrictlySortedById(b)
    requires multiset(a) == multiset(b) && a != []
    ensures b != [] && a[0] == b[0]
  {
    assert a[0] in multiset(b);
    assert b != [];
    assert b[0] in multiset(a);
    var k :| 0 <= k < |b| && b[k] == a[0];
    var m :| 0 <= m < |a| && a[m] == b[0];
    assert b[k].id <= b[0].id by {
      assert a[0].id <= a[m].id;
    }
    assert k == 0;
  }

  /** A sorted sequence holding the same entries as a strictly sorted one is that sequence. */
  lemma {:induction false} SortedUnique(a: seq<FileSystemObject>, b: seq<FileSystemObject>)
    requires SortedById(a) && StrictlySortedById(b)
    requires multiset(a) == multiset(b)
    ensures a == b
  {
    if a == [] {
      assert |multiset(b)| == 0;
    } else {
      SortedUniqueHead(a, b);
      MultisetTail(a, b);
      SortedUnique(a[1..], b[1..]);
      assert a == [a[0]] + a[1..] && b == [b[0]] + b[1..];
    }
  }

  /**
    Sorting by id determines the snapshot: when a folder's ids are distinct,
    every ordering of its entries by id is the one `SortById` builds, so the
    model does not depend on which sorting algorithm is used.
   */
  lemma SnapshotOrderIsUnique(listing: seq<FileSystemObject>, other: seq<FileSystemObject>)
    requires DistinctIds(listing)
    requires SortedById(other) && multiset(other) == multiset(listing)
    ensures other == SortById(listing)
  {
    SortStrict(listing);
    SortedUnique(other, SortById(listing));
  }
}

=== FILE: watcher.dfy ===
/**
  The watcher's sequential logic: its configuration defaults, the store of
  the last snapshot taken of each folder, the enabled flag of the platform
  notification provider (start, stop and re-arming after a provider error),
  and the step that turns a batch of changed paths into logical changes.
 */
module ReactiveWatcher {
  import opened FileSystemModel
  import opened FileSystemChanges
  import opened Snapshots
  import SnapshotProperties

  const DefaultTemporalResolutionMillis: int := 250

  /** The last snapshot taken of each folder, by folder path. */
  type Store = map<string, Snapshot>

  datatype Watcher = Watcher(
    root: string,
    ignore: seq<string>,
    temporalResolution: Ticks,
    enabled: bool,
    snapshots: Store)

  /** The folders a reset snapshots: the root and every folder below it. */
  function WatchedFolders(fs: FileSystem, root: string): set<string> {
    {root} + Subfolders(fs, root)
  }

  /**
    For every folder in `folders` that exists and has a stored snapshot,
    comparing the stored snapshot with a fresh one reports nothing.
   */
  ghost predicate CaughtUp(store: Store, fs: FileSystem, folders: set<string>, latency: Ticks) {
    forall d :: d in folders && d in store && DirectoryExists(fs, d) ==>
      Diff(store[d].contents, SnapshotOf(Listing(fs, d)).contents, latency) == []
  }

  /** The store's get-or-create: the stored value, or `created`, which is then stored. */
  function GetOrCreate(store: Store, folder: string, created: Snapshot): (r: (Snapshot, Store))
    ensures r.1.Keys == store.Keys + {folder}
    ensures folder in r.1 && r.1[folder] == r.0
    ensures folder in store ==> r.1 == store
    ensures folder !in store ==> r.0 == created
    ensures forall d :: d in store ==> r.1[d] == store[d]
  {
    if folder in store then (store[folder], store) else (created, store[folder := created])
  }

  /** The store after a reset: the root and the folders below it freshly snapshotted, the rest kept. */
  lemma ResetEntries(store: Store, fs: FileSystem, root: string, below: Store, folders: set<string>)
    requires DirectoryExists(fs, root) && folders == {root} + below.Keys
    requires forall d :: d in below ==> DirectoryExists(fs, d) && below[d] == SnapshotOf(Listing(fs, d))
    ensures var r := store[root := SnapshotOf(Listing(fs, root))] + below;
            && r.Keys == store.Keys + folders
            && (forall d :: d in folders ==> DirectoryExists(fs, d) && r[d] == SnapshotOf(Listing(fs, d)))
            && (forall d :: d in store && d !in folders ==> r[d] == store[d])
  {
  }

  /**
    Stores a fresh snapshot of the root and of every folder below it, at any
    depth; entries for other folders are kept. Fails when the root does not
    exist.
   */
  function ResetSnapshots(fs: FileSystem, root: string, store: Store): (r: Result<Store>)
    ensures r.Ok? <==> DirectoryExists(fs, root)
    ensures r.Err? ==> r.error == DirectoryNotFound(root)
    ensures r.Ok? ==> r.value.Keys == store.Keys + WatchedFolders(fs, root)
    ensures r.Ok? ==> forall d :: d in WatchedFolders(fs, root) ==> DirectoryExists(fs, d) && r.value[d] == SnapshotOf(Listing(fs, d))
    ensures r.Ok? ==> forall d :: d in store && d !in WatchedFolders(fs, root) ==> r.value[d] == store[d]
  {
    match TakeSnapshot(fs, root)
    case Err(e) => Err(e)
    case Ok(rootSnapshot) =>
      var below := map d | d in Subfolders(fs, root) :: TakeSnapshot(fs, d).value;
      ResetEntries(store, fs, root, below, WatchedFolders(fs, root));
      Ok(store[root := rootSnapshot] + below)
  }

  /**
    A new watcher: an absent ignore list is empty, the zero resolution
    stands for the 250 ms default, the provider is enabled as `startRunning`
    says, and the store holds a snapshot of the root and every folder below
    it. Fails when the root does not exist.
   */
  function Create(fs: FileSystem, root: string, ignore: Option<seq<string>>, startRunning: bool,
                  temporalResolution: Ticks): (r: Result<Watcher>)
    ensures r.Ok? <==> DirectoryExists(fs, root)
    ensures r.Err? ==> r.error == InvalidRoot(root)
    ensures r.Ok? ==> r.value.root == root && r.value.enabled == startRunning
    ensures r.Ok? ==> r.value.ignore == (if ignore.None? then [] else ignore.value)
    ensures r.Ok? && temporalResolution == 0 ==> r.value.temporalResolution == 2_500_000  // 250 ms
    ensures r.Ok? && temporalResolution != 0 ==> r.value.temporalResolution == temporalResolution
    ensures r.Ok? ==> r.value.snapshots.Keys == WatchedFolders(fs, root)
    ensures r.Ok? ==> forall d :: d in WatchedFolders(fs, root) ==> r.value.snapshots[d] == SnapshotOf(Listing(fs, d))
  {
    var ignored := if ignore.None? then [] else ignore.value;
    var resolution := if temporalResolution == 0 then DefaultTemporalResolutionMillis * TicksPerMillisecond
                      else temporalResolution;
    if !DirectoryExists(fs, root) then
      // the notification provider rejects a root that is not an existing folder
      Err(InvalidRoot(root))
    else
      match ResetSnapshots(fs, root, map[])
      case Err(e) => Err(e)
      case Ok(store) => Ok(Watcher(root, ignored, resolution, startRunning, store))
  }

  /** Re-snapshots the root and every folder below it, then enables the provider. */
  function Start(w: Watcher, fs: FileSystem): (r: Result<Watcher>)
    ensures r.Ok? <==> DirectoryExists(fs, w.root)
    ensures r.Err? ==> r.error == DirectoryNotFound(w.root)
    ensures r.Ok? ==> r.value.enabled
    ensures r.Ok? ==> r.value.(enabled := w.enabled, snapshots := w.snapshots) == w
    ensures r.Ok? ==> r.value.snapshots.Keys == w.snapshots.Keys + WatchedFolders(fs, w.root)
    ensures r.Ok? ==> forall d :: d in WatchedFolders(fs, w.root) ==> r.value.snapshots[d] == SnapshotOf(Listing(fs, d))
    ensures r.Ok? ==> forall d :: d in w.snapshots && d !in WatchedFolders(fs, w.root) ==>
                        r.value.snapshots[d] == w.snapshots[d]
  {
    match ResetSnapshots(fs, w.root, w.snapshots)
    case Err(e) => Err(e)
    case Ok(store) => Ok(w.(snapshots := store, enabled := true))
  }

  /** Disables the provider; the store is kept as it is. */
  function Stop(w: Watcher): (r: Watcher)
    ensures !r.enabled
    ensures r.(enabled := w.enabled) == w
  {
    w.(enabled := false)
  }

  /** After a provider error the provider is re-enabled exactly when the root still exists. */
  function OnProviderError(w: Watcher, fs: FileSystem): (r: Watcher)
    ensures r.enabled <==> DirectoryExists(fs, w.root)
    ensures r.(enabled := w.enabled) == w
  {
    w.(enabled := DirectoryExists(fs, w.root))
  }

  /**
    The changes one changed path contributes. When the path's folder is
    gone, a Delete of the path itself, and the folder's stored snapshot is
    dropped. Otherwise the changes between the folder's stored snapshot
    (created from the current state on first access) and a fresh one; the
    fresh one replaces the stored one only when there are changes.
   */
  function ChangesForPath(w: Watcher, fs: FileSystem, path: string, latency: Ticks): (r: (seq<FileSystemChange>, Watcher))
    ensures r.1.(snapshots := w.snapshots) == w
    ensures forall d :: d != DirectoryName(path) ==>
              (d in r.1.snapshots <==> d in w.snapshots) && (d in w.snapshots ==> r.1.snapshots[d] == w.snapshots[d])
    ensures !DirectoryExists(fs, DirectoryName(path)) ==>
              r.0 == [Deleted(path)] && DirectoryName(path) !in r.1.snapshots
    ensures DirectoryExists(fs, DirectoryName(path)) ==> DirectoryName(path) in r.1.snapshots
    ensures DirectoryExists(fs, DirectoryName(path)) && DirectoryName(path) in w.snapshots ==>
              r.0 == Diff(w.snapshots[DirectoryName(path)].contents, SnapshotOf(Listing(fs, DirectoryName(path))).contents, latency)
    ensures DirectoryExists(fs, DirectoryName(path)) && DirectoryName(path) in w.snapshots && r.0 == [] ==> r.1 == w
    ensures DirectoryExists(fs, DirectoryName(path)) && r.0 != [] ==>
              r.1.snapshots[DirectoryName(path)] == SnapshotOf(Listing(fs, DirectoryName(path)))
    ensures DirectoryExists(fs, DirectoryName(path)) && DirectoryName(path) !in w.snapshots && latency >= 0 ==>
              r.0 == [] && r.1.snapshots == w.snapshots[DirectoryName(path) := SnapshotOf(Listing(fs, DirectoryName(path)))]
    ensures DirectoryExists(fs, DirectoryName(path)) && latency >= 0 ==>
              CaughtUp(r.1.snapshots, fs, {DirectoryName(path)}, latency)
  {
    var parent := DirectoryName(path);
    match TakeSnapshot(fs, parent)
    case Err(_) =>
      // the path's folder no longer exists
      ([Deleted(path)], w.(snapshots := w.snapshots - {parent}))
    case Ok(snapshot) =>
      var (stored, store) := GetOrCreate(w.snapshots, parent, snapshot);
      var diff := Diff(stored.contents, snapshot.contents, latency);
      assert latency >= 0 ==> Diff(snapshot.contents, snapshot.contents, latency) == [] by {
        if latency >= 0 {
          SnapshotProperties.DiffOfEqualIsEmpty(snapshot.contents, latency);
        }
      }
      if |diff| > 0 then (diff, w.(snapshots := store[parent := snapshot]))
      else (diff, w.(snapshots := store))
  }

  /** The folders of the paths in a batch. */
  function Parents(paths: seq<string>): set<string> {
    set p | p in paths :: DirectoryName(p)
  }

  /**
    The logical changes for a batch of changed paths: each path's
    contribution, in the order of the paths, threading the store through.
   */
  function GetChanges(w: Watcher, fs: FileSystem, paths: seq<string>, latency: Ticks): (r: (seq<FileSystemChange>, Watcher))
    ensures r.1.(snapshots := w.snapshots) == w
    ensures forall d :: d !in Parents(paths) ==>
              (d in r.1.snapshots <==> d in w.snapshots) && (d in w.snapshots ==> r.1.snapshots[d] == w.snapshots[d])
    decreases |paths|
  {
    if paths == [] then ([], w)
    else
      var (first, next) := ChangesForPath(w, fs, paths[0], latency);
      var (rest, last) := GetChanges(next, fs, paths[1..], latency);
      assert forall p :: p in paths[1..] ==> p in paths;
      (first + rest, last)
  }
}

=== FILE: watcher_properties.dfy ===
/**
  Properties of the watcher across several steps: how a batch splits into
  its paths, why a second path in an existing folder adds nothing, why a
  batch right after Start reports nothing, what a vanished folder yields,
  and how the provider recovers from an error.
 */
module WatcherProperties {
  import opened FileSystemModel
  import opened FileSystemChanges
  import opened Snapshots
  import opened ReactiveWatcher
  import SnapshotProperties

  /** Processing `first + second` is processing `first`, then `second` from the store `first` left. */
  lemma {:induction false} GetChangesAppend(w: Watcher, fs: FileSystem, first: seq<string>, second: seq<string>, latency: Ticks)
    ensures var (changes1, w1) := GetChanges(w, fs, first, latency);
            var (changes2, w2) := GetChanges(w1, fs, second, latency);
            GetChanges(w, fs, first + second, latency) == (changes1 + changes2, w2)
    decreases |first|
  {
    if first == [] {
      assert first + second == second;
      var (changes2, w2) := GetChanges(w, fs, second, latency);
      assert [] + changes2 == changes2;
    } else {
      var both := first + second;
      assert both[0] == first[0] && both[1..] == first[1..] + second;
      var (head, next) := ChangesForPath(w, fs, first[0], latency);
      GetChangesAppend(next, fs, first[1..], second, latency);
      var (changes1, w1) := GetChanges(next, fs, first[1..], latency);
      var (changes2, w2) := GetChanges(w1, fs, second, latency);
      assert GetChanges(w, fs, first, latency) == (head + changes1, w1);
      Snapshots.AppendAssoc(head, changes1, changes2);
    }
  }

  /**
    Once a path in an existing folder was processed, another path in the
    same folder, against the same filesystem, adds no change and leaves the
    watcher as it is.
   */
  lemma SharedParentAddsNothing(w: Watcher, fs: FileSystem, first: string, second: string, latency: Ticks)
    requires DirectoryName(first) == DirectoryName(second)
    requires DirectoryExists(fs, DirectoryName(first))
    requires latency >= 0
    ensures var w1 := ChangesForPath(w, fs, first, latency).1;
            ChangesForPath(w1, fs, second, latency) == ([], w1)
  {
    var w1 := ChangesForPath(w, fs, first, latency).1;
    var parent := DirectoryName(first);
    assert parent in {parent};
  }

  /** Processing a path never leaves a folder behind the filesystem that was caught up with it. */
  lemma ChangesForPathKeepsCaughtUp(w: Watcher, fs: FileSystem, path: string, folders: set<string>, latency: Ticks)
    requires latency >= 0
    requires CaughtUp(w.snapshots, fs, folders, latency)
    ensures CaughtUp(ChangesForPath(w, fs, path, latency).1.snapshots, fs, folders, latency)
  {
    var store := ChangesForPath(w, fs, path, latency).1.snapshots;
    var parent := DirectoryName(path);
    forall d | d in folders && d in store && DirectoryExists(fs, d)
      ensures Diff(store[d].contents, SnapshotOf(Listing(fs, d)).contents, latency) == []
    {
      if d == parent {
        assert parent in {parent};
      }
    }
  }

  /**
    A batch whose paths all lie in existing folders the store is caught up
    with reports no change, and the store stays caught up.
   */
  lemma {:induction false} QuietBatch(w: Watcher, fs: FileSystem, paths: seq<string>, folders: set<string>, latency: Ticks)
    requires latency >= 0
    requires CaughtUp(w.snapshots, fs, folders, latency)
    requires forall p :: p in paths ==> DirectoryName(p) in folders && DirectoryExists(fs, DirectoryName(p))
    ensures GetChanges(w, fs, paths, latency).0 == []
    ensures CaughtUp(GetChanges(w, fs, paths, latency).1.snapshots, fs, folders, latency)
    decreases |paths|
  {
    if paths != [] {
      var parent := DirectoryName(paths[0]);
      assert paths[0] in paths;
      var (head, next) := ChangesForPath(w, fs, paths[0], latency);
      assert head == [];
      ChangesForPathKeepsCaughtUp(w, fs, paths[0], folders, latency);
      assert forall p :: p in paths[1..] ==> p in paths;
      QuietBatch(next, fs, paths[1..], folders, latency);
    }
  }

  /** After Start the store is caught up with the root and every folder below it. */
  lemma StartCatchesUp(w: Watcher, fs: FileSystem, latency: Ticks)
    requires latency >= 0
    requires DirectoryExists(fs, w.root)
    ensures Start(w, fs).Ok?
    ensures CaughtUp(Start(w, fs).value.snapshots, fs, WatchedFolders(fs, w.root), latency)
  {
    var store := Start(w, fs).value.snapshots;
    forall d | d in WatchedFolders(fs, w.root) && d in store && DirectoryExists(fs, d)
      ensures Diff(store[d].contents, SnapshotOf(Listing(fs, d)).contents, latency) == []
    {
      SnapshotProperties.DiffOfEqualIsEmpty(SnapshotOf(Listing(fs, d)).contents, latency);
    }
  }

  /** Stopping before a Start makes no difference to what Start produces. */
  lemma StartAfterStop(w: Watcher, fs: FileSystem)
    ensures Start(Stop(w), fs) == Start(w, fs)
  {
    if DirectoryExists(fs, w.root) {
      var r1, r2 := Start(Stop(w), fs).value, Start(w, fs).value;
      assert r1.snapshots == r2.snapshots;
    }
  }

  /** Resetting a store that was just reset, against the same filesystem, changes nothing. */
  lemma ResetTwiceIsReset(fs: FileSystem, root: string, store: Store)
    requires DirectoryExists(fs, root)
    ensures ResetSnapshots(fs, root, store).Ok?
    ensures ResetSnapshots(fs, root, ResetSnapshots(fs, root, store).value) == ResetSnapshots(fs, root, store)
  {
    var once := ResetSnapshots(fs, root, store).value;
    var twice := ResetSnapshots(fs, root, once).value;
    assert twice.Keys == once.Keys;
    forall d | d in once ensures twice[d] == once[d] {
      if d in WatchedFolders(fs, root) {
        assert twice[d] == SnapshotOf(Listing(fs, d)) == once[d];
      }
    }
    assert twice == once;
  }

  /** Starting a running watcher again, against the same filesystem, changes nothing. */
  lemma StartIsIdempotent(w: Watcher, fs: FileSystem)
    requires DirectoryExists(fs, w.root)
    ensures Start(w, fs).Ok? && Start(Start(w, fs).value, fs) == Start(w, fs)
  {
    ResetTwiceIsReset(fs, w.root, w.snapshots);
  }

  /**
    What changed while the watcher was stopped is never reported: right
    after Start, a batch of paths in existing folders of the watched tree
    reports no change while the filesystem stays as Start saw it.
   */
  lemma NothingReportedAfterStart(w: Watcher, fs: FileSystem, paths: seq<string>, latency: Ticks)
    requires latency >= 0
    requires DirectoryExists(fs, w.root)
    requires forall p :: p in paths ==> DirectoryName(p) in WatchedFolders(fs, w.root) && DirectoryExists(fs, DirectoryName(p))
    ensures Start(w, fs).Ok?
    ensures GetChanges(Start(w, fs).value, fs, paths, latency).0 == []
  {
    StartCatchesUp(w, fs, latency);
    QuietBatch(Start(w, fs).value, fs, paths, WatchedFolders(fs, w.root), latency);
  }

  /** One Delete per path, for the head and then the tail. */
  lemma DeletesOfPaths(paths: seq<string>, head: seq<FileSystemChange>, rest: seq<FileSystemChange>)
    requires paths != [] && head == [Deleted(paths[0])]
    requires |rest| == |paths| - 1 && forall i :: 0 <= i < |rest| ==> rest[i] == Deleted(paths[1..][i])
    ensures |head + rest| == |paths| && forall i :: 0 <= i < |paths| ==> (head + rest)[i] == Deleted(paths[i])
  {
    forall i | 0 <= i < |paths| ensures (head + rest)[i] == Deleted(paths[i]) {
      if i > 0 {
        assert paths[1..][i - 1] == paths[i];
      }
    }
  }

  /** A folder dropped by the first step stays dropped when the rest of the batch only drops or keeps folders. */
  lemma FoldersStayDropped(paths: seq<string>, next: Store, last: Store)
    requires paths != [] && DirectoryName(paths[0]) !in next
    requires forall p :: p in paths[1..] ==> DirectoryName(p) !in last
    requires forall d :: d !in Parents(paths[1..]) ==> (d in last <==> d in next)
    ensures forall p :: p in paths ==> DirectoryName(p) !in last
  {
    forall p | p in paths ensures DirectoryName(p) !in last {
      if p != paths[0] {
        var k :| 0 <= k < |paths| && paths[k] == p;
        assert paths[1..][k - 1] == p;
      } else if DirectoryName(p) in Parents(paths[1..]) {
        var q :| q in paths[1..] && DirectoryName(q) == DirectoryName(p);
      }
    }
  }

  /**
    A batch whose paths all lie in folders that no longer exist yields one
    Delete per path, carrying the path, in order, and none of those folders
    keeps a stored snapshot.
   */
  lemma {:induction false} VanishedFolders(w: Watcher, fs: FileSystem, paths: seq<string>, latency: Ticks)
    requires forall p :: p in paths ==> !DirectoryExists(fs, DirectoryName(p))
    ensures |GetChanges(w, fs, paths, latency).0| == |paths|
    ensures forall i :: 0 <= i < |paths| ==> GetChanges(w, fs, paths, latency).0[i] == Deleted(paths[i])
    ensures forall p :: p in paths ==> DirectoryName(p) !in GetChanges(w, fs, paths, latency).1.snapshots
    decreases |paths|
  {
    if paths != [] {
      assert paths[0] in paths;
      var (head, next) := ChangesForPath(w, fs, paths[0], latency);
      assert forall p :: p in paths[1..] ==> p in paths;
      VanishedFolders(next, fs, paths[1..], latency);
      var (rest, last) := GetChanges(next, fs, paths[1..], latency);
      FoldersStayDropped(paths, next.snapshots, last.snapshots);
      DeletesOfPaths(paths, head, rest);
    }
  }

  /**
    The provider's error handling across the root's life: an error while the
    root is gone leaves the provider disabled and Start fails; once the root
    exists again, Start succeeds and enables it; deleting the root again
    disables it at the next error.
   */
  lemma ErrorRecovery(w: Watcher, gone: FileSystem, back: FileSystem)
    requires !DirectoryExists(gone, w.root)
    requires DirectoryExists(back, w.root)
    ensures !OnProviderError(w, gone).enabled
    ensures Start(OnProviderError(w, gone), gone) == Err(DirectoryNotFound(w.root))
    ensures Start(OnProviderError(w, gone), back).Ok?
    ensures Start(OnProviderError(w, gone), back).value.enabled
    ensures !OnProviderError(Start(OnProviderError(w, gone), back).value, gone).enabled
  {
  }
}
